=== FILE: README.md ===
# LoLWideScreenFix core, modelled in Dafny

LoLWideScreenFix builds a League of Legends mod that centres the game's UI on wide
and ultra-wide screens. The tool goes through the UI property trees (`.bin` files)
inside the game's WAD archives. It finds every UI element that is pinned to the left
or right screen edge and moves the element's rectangle horizontally for the target
resolution width. It then re-pins the element's anchor to the horizontal centre. The
changed trees are written out as a raw folder or as a LoLCustomSkin mod.

This project models that core. Each file is one module:

- `bin_tree.dfy` (`BinTree`): the decoded property tree. It holds objects and their
  property lists. A property is tagged `Vec2 | Vec4 | U16 | Struct | Other` and carries
  a 32-bit name hash.
- `property_lookup.dfy` (`PropertyLookup`): the typed lookup `GetPropertyByType<T>` on
  an object and on a structure. It returns the first property with a given name hash
  and variant. The module also gives the LINQ pipeline the source writes as a
  reference definition.
- `rounding.dfy` (`Rounding`): `Math.Round(x, 1)`, which rounds to one decimal with
  midpoints going to the even neighbour, over exact reals.
- `widescreen_fix.dfy` (`WideScreenFix`): the re-anchoring pass `GetModdedBinTree`,
  including `ReanchorCentrally` and `IsAncorSupported`.
- `paths.dfy` (`Paths`): the string and path helpers the mod creator uses. These are
  lower-casing, `Replace`, `TrimStart`/`TrimEnd`, `Path.GetFileName`,
  `Path.GetDirectoryName`, `Path.Combine` and `LastFolderCompare`.
- `mod_creator.dfy` (`ModCreator`): the rest of the mod creator's core:
  - the case-insensitive path hash and the table of entries to fix;
  - the entry filter and the per-WAD output plan shared by the raw-folder mode and the
    LoLCustomSkin mode;
  - the relative WAD path and the on-disk entry path;
  - the search for the WAD folder (`GetLeagueWadPath`);
  - the mod's name and folder name.
- `wrappers.dfy` (`Wrappers`): `Option` and `Result`.

Exceptions become `Failure` values. The pass `GetModdedBinTree` returns the new tree
together with its change count. Code outside this model stays out of it as follows:

- XXHash64 is a function parameter.
- The four FNV-1a name hashes are a `NameHashes` record parameter.
- `Directory.Exists` and `File.Exists` are predicate parameters.
- The platform's directory separator is a `char` parameter.

Two behaviours of the source are modelled as the source has them; one call-site
inconsistency is resolved:

- Every entry the filter keeps is re-encoded and written, even when the pass changed
  none of its objects.
- A WAD is written whenever at least one of its entries is kept, even if nothing in it
  changed.
- The call sites call the lookup `GetPropertyByTyp` and leave out the `out changes`
  argument. The model takes the defined extension `GetPropertyByType`, and the pass
  returns `(tree, changes)`.

## Model

| member | source | states |
|---|---|---|
| PropertyLookup.FirstMatchIndex | src/LoLWideScreenFix/Extensions/BinTreeStructureExtensions.cs:20 | the position found is the first whose name hash and variant both match; none is found exactly when no property matches both |
| PropertyLookup.Lookup | src/LoLWideScreenFix/Extensions/BinTreeStructureExtensions.cs:20 | a result matches hash and variant, is a member of the list, and is the property at the first matching position; the result is null exactly when nothing matches, including for an empty list |
| PropertyLookup.GetObjectPropertyByType | src/LoLWideScreenFix/Extensions/BinTreeObjectExtensions.cs:18-19 | on an object: a non-null result has the requested name hash and variant, is one of the object's properties and is the first such; null exactly when none matches |
| PropertyLookup.GetStructurePropertyByType | src/LoLWideScreenFix/Extensions/BinTreeStructureExtensions.cs:19-20 | the same first-match guarantees over a structure's properties |
| PropertyLookup.LookupIsLinqPipeline | src/LoLWideScreenFix/Extensions/BinTreeStructureExtensions.cs:20 | the fused search equals `Where(NameHash == h).OfType<T>().FirstOrDefault()` stage by stage, for every list |
| PropertyLookup.LookupSkipsNonMatchingHead | src/LoLWideScreenFix/Extensions/BinTreeObjectExtensions.cs:19 | a leading property that fails either test is skipped and the search continues behind it |
| PropertyLookup.WrongVariantDoesNotHide | src/LoLWideScreenFix/Extensions/BinTreeStructureExtensions.cs:20 | where a search on the hash alone stops at a property of the wrong variant, the typed lookup still finds a property of the right variant when one exists, so the two answers differ |
| PropertyLookup.FirstMatchIndexStable | src/LoLWideScreenFix/LoLWideScreenFix.cs:103-104 | assigning a new value of the same variant to a property leaves the position every typed lookup finds unchanged |
| Rounding.RoundHalfEven | src/LoLWideScreenFix/LoLWideScreenFix.cs:142-143 | the result is the integer nearest to the input, the even one on a tie |
| Rounding.NearestHalfEvenUnique | src/LoLWideScreenFix/LoLWideScreenFix.cs:142-143 | at most one integer is nearest with ties to even, so the rounding is determined by its specification |
| Rounding.RoundTenth | src/LoLWideScreenFix/LoLWideScreenFix.cs:142-143 | `Math.Round(v, 1)` is a whole number of tenths, nearest to `v` with midpoints to the even tenth, and within 0.05 of `v` |
| Rounding.RoundTenthOdd | src/LoLWideScreenFix/LoLWideScreenFix.cs:138-143 | rounding commutes with negation |
| Rounding.RoundTenthKeepsTenths | src/LoLWideScreenFix/LoLWideScreenFix.cs:142-143 | a value that already is a whole number of tenths is returned as it is |
| Rounding.RoundTenthIdempotent | src/LoLWideScreenFix/LoLWideScreenFix.cs:142-143 | rounding a rounded value changes nothing |
| WideScreenFix.Shift | src/LoLWideScreenFix/LoLWideScreenFix.cs:134-139 | both anchors move by the same distance, abs(offset) times the source width, where offset = (target / 1440 - 1) / 2; a left-pinned rectangle never moves right; a right-pinned one moves right for a target of at least 1440 and left below it |
| WideScreenFix.OffsetPositive | src/LoLWideScreenFix/LoLWideScreenFix.cs:134-135 | above 1440 the offset is strictly positive |
| WideScreenFix.ReanchorCentrally | src/LoLWideScreenFix/LoLWideScreenFix.cs:124-155 | an unsupported anchor returns the rectangle unchanged; Y and W are always kept; for a supported anchor X and Z become the shifted edges rounded to one decimal |
| WideScreenFix.ShiftMirrors | src/LoLWideScreenFix/LoLWideScreenFix.cs:137-139 | above 1440 the left-pinned shift is exactly the negated right-pinned shift |
| WideScreenFix.RoundTenthMirror | src/LoLWideScreenFix/LoLWideScreenFix.cs:142-143 | shifting an edge left and rounding mirrors shifting its reflection right and rounding |
| WideScreenFix.ReanchorSupported | src/LoLWideScreenFix/LoLWideScreenFix.cs:131-146 | for a supported anchor the result is the rectangle with both horizontal edges shifted by the same amount and rounded |
| WideScreenFix.ReanchorMirrors | src/LoLWideScreenFix/LoLWideScreenFix.cs:134-143 | a left-pinned rectangle is reanchored to the mirror image of the right-pinned reanchoring of its mirror image |
| WideScreenFix.ReanchorExample | src/LoLWideScreenFix/LoLWideScreenFix.cs:124-147 | (0,0,100,50) with source width 1024 and target 1920 becomes (170.7,0,270.7,50) when right-pinned and (-170.7,0,-70.7,50) when left-pinned |
| WideScreenFix.Locate | src/LoLWideScreenFix/LoLWideScreenFix.cs:80-93 | the four typed lookups of the pass all succeed exactly when the result is present, and it records the first-match position and value of each |
| WideScreenFix.CentredAnchors | src/LoLWideScreenFix/LoLWideScreenFix.cs:104 | the anchor becomes (0.5, old Y); every other property of `mAnchors` and their order are kept |
| WideScreenFix.Commit | src/LoLWideScreenFix/LoLWideScreenFix.cs:102-104 | `mRect` takes the new rectangle and `mAnchors` the centred anchor; every other property, the names and the variants stay as they are |
| WideScreenFix.CommitLookups | src/LoLWideScreenFix/LoLWideScreenFix.cs:102-104 | after the commit the same lookups find the same positions, now holding the new rectangle and the centred anchor |
| WideScreenFix.ReanchorObject | src/LoLWideScreenFix/LoLWideScreenFix.cs:79-107 | an object is counted exactly when all properties are found, the anchor X is 0 or 1 and the reanchored rectangle differs; it is changed exactly when counted; names and variants are kept |
| WideScreenFix.ReanchorObjectEffect | src/LoLWideScreenFix/LoLWideScreenFix.cs:96-104 | a counted object gets the reanchored rectangle and anchor (0.5, Y); the width and every other property, at top level and inside `mAnchors`, are unchanged |
| WideScreenFix.ReanchorObjectAnchorSupport | src/LoLWideScreenFix/LoLWideScreenFix.cs:154-155 | an object whose anchor X is neither 0 nor 1 is never changed; a changed object had a supported anchor, and its anchor afterwards is not supported |
| WideScreenFix.ReanchorObjectIdempotent | src/LoLWideScreenFix/LoLWideScreenFix.cs:92-104 | reanchoring an object a second time changes nothing and counts nothing |
| WideScreenFix.CountDifferingZero | src/LoLWideScreenFix/LoLWideScreenFix.cs:106-107 | no position differs exactly when the two object lists are equal |
| WideScreenFix.ReanchorObjects | src/LoLWideScreenFix/LoLWideScreenFix.cs:76-108 | the loop keeps length and order, treats each object independently, and counts exactly the objects it changes, at most all of them |
| WideScreenFix.GetModdedBinTree | src/LoLWideScreenFix/LoLWideScreenFix.cs:64-112 | a width of at most 1440 fails before anything is read; otherwise dependencies, length and order are kept, each object changes exactly when it qualifies, and the count equals the number of changed objects |
| WideScreenFix.GetModdedBinTreeIdempotent | src/LoLWideScreenFix/LoLWideScreenFix.cs:64-112 | for every width above 1440 the pass succeeds, and running it on its own output returns that output with zero changes |
| Paths.LowerChar | src/LoLWideScreenFix/ModCreater.cs:408 | upper-case ASCII letters map to their lower-case form, every other character to itself |
| Paths.ToLower | src/LoLWideScreenFix/ModCreater.cs:408 | lower-casing keeps the length, lowers each character and leaves no upper-case letter |
| Paths.ToLowerIdempotent | src/LoLWideScreenFix/ModCreater.cs:408 | lower-casing twice is lower-casing once |
| Paths.Replace | src/LoLWideScreenFix/ModCreater.cs:209 | every occurrence of the old character becomes the new one; every other character and the length are kept |
| Paths.ReplaceRemovesAll | src/LoLWideScreenFix/ModCreater.cs:209 | after replacing by a different character no occurrence of the old one remains |
| Paths.ReplaceRoundTrip | src/LoLWideScreenFix/ModCreater.cs:209 | replacing back restores the string when the new character did not occur in it |
| Paths.TrimStart | src/LoLWideScreenFix/ModCreater.cs:199 | the result is a suffix, the removed prefix is all trim characters and the result does not start with one |
| Paths.TrimEnd | src/LoLWideScreenFix/ModCreater.cs:367 | the result is a prefix, the removed suffix is all trim characters and the result does not end with one |
| Paths.LastIndexOf | src/LoLWideScreenFix/ModCreater.cs:367 | the position holds the character and none follows it; none is found exactly when the character is absent |
| Paths.FileName | src/LoLWideScreenFix/ModCreater.cs:367 | the file name is the separator-free suffix that follows the last separator |
| Paths.DirectoryName | src/LoLWideScreenFix/ModCreater.cs:367 | null exactly for the empty path; otherwise what precedes the last separator, without trailing separators |
| Paths.Combine | src/LoLWideScreenFix/ModCreater.cs:341-346 | joining keeps both parts in order and inserts one separator exactly when the first part is non-empty and does not end with one |
| Paths.LastIndexOfAfterPrefix | src/LoLWideScreenFix/ModCreater.cs:367 | the last separator of `parent/last` is the one after `parent` |
| Paths.TrimEndOfSeparators | src/LoLWideScreenFix/ModCreater.cs:367 | trimming removes exactly an appended run of separators |
| Paths.LastFolderCompareNamesLastFolder | src/LoLWideScreenFix/ModCreater.cs:366-367 | the corrected compare of `parent/last` with any run of trailing separators is a case-insensitive compare of `last` |
| Paths.LastFolderCompareAsWrittenReadsParent | src/LoLWideScreenFix/ModCreater.cs:366-367 | the compare as written reads the parent folder of `parent/last`, not `last` |
| Paths.LastFolderCompareAsWrittenMissesLastFolder | src/LoLWideScreenFix/ModCreater.cs:366-367 | when the last folder's name is longer than the whole parent path, the written compare misses it and the corrected compare finds it |
| Paths.LastFolderCompareAsWrittenMissesGame | src/LoLWideScreenFix/ModCreater.cs:343 | for "LoL/Game" the compare as written says the last folder is not "Game"; the corrected one says it is |
| Paths.LastFolderCompareAsWrittenMatchesParent | src/LoLWideScreenFix/ModCreater.cs:366-367 | as written, the compare accepts `parent/folder/last` for `folder`, so a WAD folder `.../DATA/FINAL` passes the DATA test |
| Paths.LastFolderCompareAgreesOnTrailingSeparator | src/LoLWideScreenFix/ModCreater.cs:366-367 | for a path ending in a separator the written and the corrected compare agree |
| ModCreator.HashIgnoresCase | src/LoLWideScreenFix/ModCreater.cs:407-408 | two paths that differ only in letter case hash alike |
| ModCreator.HashOfLowerCase | src/LoLWideScreenFix/ModCreater.cs:407-408 | a path and its lower-cased form hash alike |
| ModCreator.ToDictionary | src/LoLWideScreenFix/ModCreater.cs:152 | building the table succeeds exactly when the keys are pairwise distinct; its keys are exactly the listed keys; a failure names a key that occurs at two positions |
| ModCreator.ToDictionaryMapsKeys | src/LoLWideScreenFix/ModCreater.cs:152 | a built table maps every listed key to the value listed with it |
| ModCreator.HashAll | src/LoLWideScreenFix/ModCreater.cs:152 | each path's hash, in order |
| ModCreator.FilesToFix | src/LoLWideScreenFix/ModCreater.cs:54-152 | the table exists exactly when the 88 listed paths hash to distinct values; it then maps each path's hash to the path and holds no other key |
| ModCreator.SelectEntriesToFix | src/LoLWideScreenFix/ModCreater.cs:192 | the selection keeps every entry whose key is in the table, as often as it occurs, and no other |
| ModCreator.SelectEntriesToFixExactly | src/LoLWideScreenFix/ModCreater.cs:273 | an entry is selected exactly when it is in the WAD and its key is in the table |
| ModCreator.SelectionEmpty | src/LoLWideScreenFix/ModCreater.cs:195-196 | nothing is selected exactly when no entry's key is in the table |
| ModCreator.RelativeWadPath | src/LoLWideScreenFix/ModCreater.cs:199 | the relative path is a suffix of the WAD's path after the WAD folder; only separators lie between the two, and it does not start with one |
| ModCreator.RelativeWadPathRoundTrip | src/LoLWideScreenFix/ModCreater.cs:280 | combining the WAD folder with the relative path gives back the WAD's path |
| ModCreator.LocalBinPath | src/LoLWideScreenFix/ModCreater.cs:209 | each '/' of the entry path becomes the platform separator; every other character is kept |
| ModCreator.LocalBinPathRoundTrip | src/LoLWideScreenFix/ModCreater.cs:162 | on a platform whose separator is not '/' the on-disk path holds no '/' and maps back to the entry path |
| ModCreator.ModEntries | src/LoLWideScreenFix/ModCreater.cs:202-221 | fails exactly when some entry is to be fixed and the width is at most 1440; otherwise each selected entry yields its hash, its path from the table, its on-disk path and the result of the pass on its tree |
| ModCreator.ProcessWad | src/LoLWideScreenFix/ModCreater.cs:267-316 | a WAD with no entry to fix produces nothing; otherwise its output sits at the relative path and holds one fixed entry per selected entry, in order |
| ModCreator.JoinPathSplitRoundTrip | src/LoLWideScreenFix/ModCreater.cs:342 | joining separator-free folder names with the separator loses nothing: splitting the result at the separator gives the names back |
| ModCreator.CheckWadFolder | src/LoLWideScreenFix/ModCreater.cs:348-357 | the candidate is accepted exactly when it holds `Global.wad.client` and exists; otherwise the matching exception |
| ModCreator.WadFolderCandidate | src/LoLWideScreenFix/ModCreater.cs:341-346 | under either reading of the folder compare, the candidate is the path itself or the path extended by a tail of Game/DATA/FINAL |
| ModCreator.GetLeagueWadPath | src/LoLWideScreenFix/ModCreater.cs:327-358 | an empty path fails with ArgumentNull and a missing one with DirectoryNotFound; a result exists, holds `Global.wad.client` and extends the given path |
| ModCreator.WadPathFromInstallRoot | src/LoLWideScreenFix/ModCreater.cs:341-342 | with `LeagueClient.exe` present the WAD folder is Game/DATA/FINAL below the path |
| ModCreator.WadPathFromGameFolder | src/LoLWideScreenFix/ModCreater.cs:343-344 | (intended compare) from a folder named Game (any case, with or without trailing separators) that holds `League of Legends.exe`, the WAD folder is DATA/FINAL below it |
| ModCreator.WadPathFromDataFolder | src/LoLWideScreenFix/ModCreater.cs:345-346 | (intended compare) from a folder named DATA the WAD folder is FINAL below it |
| ModCreator.WadPathAsGiven | src/LoLWideScreenFix/ModCreater.cs:340-357 | a path matching none of the layouts is itself checked as the WAD folder |
| ModCreator.GetLeagueWadPathAsWrittenRejectsWadFolder | src/LoLWideScreenFix/ModCreater.cs:345-346 | given the WAD folder `.../DATA/FINAL` itself, the search as written looks in `.../FINAL/FINAL` and fails with FileNotFound, while the intended search accepts the folder |
| ModCreator.Digit | src/LoLWideScreenFix/ModCreater.cs:245 | the digit character for a value below ten |
| ModCreator.DecimalString | src/LoLWideScreenFix/ModCreater.cs:245 | the width is written as decimal digits without leading zeros that read back as the width |
| ModCreator.DecimalStringInjective | src/LoLWideScreenFix/ModCreater.cs:245 | distinct numbers are written differently |
| ModCreator.ModInfoFor | src/LoLWideScreenFix/ModCreater.cs:259-260 | the mod's name is "WideScreenFix (" then the width in decimal without leading zeros then "p)"; author, description and version are kept |
| ModCreator.ModBaseFolderName | src/LoLWideScreenFix/ModCreater.cs:245 | the folder name is "WideScreenFix (" then digits without leading zeros that read back as the width then "p) - 1.0 (by Rerago)" |
| ModCreator.ModBaseFolderNameExtendsModName | src/LoLWideScreenFix/ModCreater.cs:245 | the folder name is the mod's name followed by " - 1.0 (by Rerago)" |
| ModCreator.ModBaseFolderNameInjective | src/LoLWideScreenFix/ModCreater.cs:245 | different widths give different folders |

## Left out

- Decoding and encoding property trees, mounting and building WAD archives,
  decompression and the XXHash3 entry checksums are not modelled. They are
  LeagueToolkit code. Trees are taken as already decoded, and an entry carries its
  tree.
- XXHash64 and FNV-1a are not modelled: they are library code. XXHash64 is a function
  parameter applied to the lower-cased path, including its UTF-8 encoding. The four
  name hashes are parameters.
- Filesystem effects are not modelled: `EnsureDirectoryExists`, `CleanDirectory`, the
  recursive `*.wad.client` enumeration, the file writes and `info.json`. A WAD is given
  by its path and entries. `ProcessWad` says what one WAD contributes, but not where
  the files go.
- A failing run is modelled as its exception only. Files and WADs written before the
  exception are not modelled.
- `Program.cs` is not part of this model: command-line parsing, console output and
  exit codes.
- Vector components are exact reals. Single-precision storage, double intermediates
  and the float cast are not modelled. `Math.Round` is exact half-to-even rounding to
  tenths.
- Null objects, null property lists and a null mounted WAD are not modelled. The
  datatypes have no null; an absent list reads as empty.
- Paths are relative, with one directory separator and no alternative separator or
  root. `Path.Combine` with a rooted second part is not modelled.
- `ToLower` is ASCII-only. Culture-specific case mappings are not modelled.
- ModCreator.ModInfoFor: models the first call only. `ModInfo` is a class, so line 260
  also renames the shared `Info`, and a later call in the same process would append
  a second suffix. That global side effect is not modelled.
- Paths.DirectoryName: does not collapse runs of separators inside the path, which
  `Path.GetDirectoryName` normalises ("a//b/c" gives "a/b" there and "a//b" here). The
  only use of the result is `FileName`, and that is the same for both.
- ModCreator.GetLeagueWadPath: the lemmas about the Game and DATA layouts state the
  intended folder compare. The compare as written is modelled as `AsWritten` and shown to
  diverge (see Findings); those layout lemmas do not hold for it.
- WideScreenFix.GetModdedBinTree: models the objects inside one tree. The pass in the
  source assigns through the property objects it found. Its effect is modelled as
  building a new tree, because aliasing between trees does not occur in this model.

## Findings

| source | as written | input that shows it | evidently intended | confidence | as-written member | corrected member |
|---|---|---|---|---|---|---|
| src/LoLWideScreenFix/ModCreater.cs:366-367 | `LastFolderCompare` takes the file name of `Path.GetDirectoryName(path)`, which is the PARENT of the last folder unless the path ends with a separator | "LoL/Game" compared with "Game" gives false, so a "Game" folder given without a trailing separator is not recognised (lines 343, 345); and "a/DATA/FINAL" passes the test for "DATA" | compare the last folder of the path, ignoring trailing separators | medium, not executed | Paths.LastFolderCompareAsWrittenMissesGame | Paths.LastFolderCompareNamesLastFolder |
| src/LoLWideScreenFix/ModCreater.cs:345-346 | the DATA test uses the same compare, so it matches the parent of the last folder | the WAD folder `a/DATA/FINAL` given directly, with the global WAD in it: the search looks for `a/DATA/FINAL/FINAL/Global.wad.client` and fails with FileNotFound | accept the folder as given | medium, not executed | ModCreator.GetLeagueWadPathAsWrittenRejectsWadFolder | ModCreator.GetLeagueWadPathAsWrittenRejectsWadFolder |

`GetLeagueWadPath` takes the reading of the compare as a parameter: `AsWritten` is the
source's behaviour and `Intended` uses the corrected compare, `Paths.LastFolderCompare`.

=== FILE: bin_tree.dfy ===
/** The already-decoded property tree (a `.bin` file) that the re-anchoring pass walks.
    Only the property variants the pass inspects are told apart; every other variant is
    carried through as `Other` with its type byte only. The pass never reads or changes
    such a property, so its payload is not modelled. */
module BinTree {

  /** A `uint16` as stored in a property tree. */
  newtype UInt16 = x: int | 0 <= x < 0x1_0000

  /** A `uint32`, the type of the requested resolution width. */
  newtype UInt32 = x: int | 0 <= x < 0x1_0000_0000

  /** A `ulong`, the type of the 64-bit path hash that keys a WAD entry. */
  newtype UInt64 = x: int | 0 <= x < 0x1_0000_0000_0000_0000

  /** `System.Numerics.Vector2`; components are modelled as reals. */
  datatype Vector2 = Vector2(x: real, y: real)

  /** `System.Numerics.Vector4`: a rectangle is (left, top, right, bottom) = (X, Y, Z, W). */
  datatype Vector4 = Vector4(x: real, y: real, z: real, w: real)

  /** A property: its 32-bit name hash and its typed value. */
  datatype Property = Property(nameHash: bv32, value: Value)

  /** A nested structure (also stands for an embedded structure, which is one). */
  datatype Structure = Structure(metaClassHash: bv32, properties: seq<Property>)

  /** The tagged union of property values. */
  datatype Value =
    | Vec2(v2: Vector2)
    | Vec4(v4: Vector4)
    | U16(u16: UInt16)
    | Struct(structure: Structure)
    | Other(typeTag: bv8)

  /** A top-level object of the tree. */
  datatype BinObject = BinObject(pathHash: bv32, metaClassHash: bv32, properties: seq<Property>)

  /** A decoded tree: its dependency list and its ordered top-level objects. */
  datatype Tree = Tree(dependencies: seq<string>, objects: seq<BinObject>)

  /** The property classes a typed lookup can ask for (the `T` of `GetPropertyByType<T>`). */
  datatype Kind = KVector2 | KVector4 | KUInt16 | KStructure | KOther

  /** The class of a value, i.e. the answer of `value is T`. */
  function KindOf(v: Value): Kind
  {
    match v
    case Vec2(_) => KVector2
    case Vec4(_) => KVector4
    case U16(_) => KUInt16
    case Struct(_) => KStructure
    case Other(_) => KOther
  }

  /** A property is found by a typed lookup for `hash` and `kind`. */
  predicate Matches(p: Property, hash: bv32, kind: Kind)
  {
    p.nameHash == hash && KindOf(p.value) == kind
  }
}

=== FILE: mod_creator.dfy ===
/** Entry selection and path mapping of the mod creator (`ModCreater`): the
    case-insensitive path hash, the table of entries to fix, the entry filter, the
    per-WAD output plan shared by the raw-folder and the LoLCustomSkin modes, the search
    for the WAD folder of an installation, and the mod's folder name. The file system,
    the WAD reader and writer and the tree codec are not modelled: existence checks are
    predicates passed in, WAD entries carry their already-decoded trees. */
module ModCreator {
  import opened Wrappers
  import opened BinTree
  import opened Paths
  import opened WideScreenFix

  /** The exceptions the mod creator can end with. */
  datatype ModError =
    | ArgumentNull                        // ArgumentNullException for an empty league path
    | DirectoryNotFound                   // DirectoryNotFoundException
    | FileNotFound(name: string)          // FileNotFoundException
    | DuplicateKey(key: UInt64)             // ToDictionary met the same key twice
    | ResolutionNotSupported(width: UInt32) // NotSupportedException from the re-anchoring pass

  /** The mod description written for "LoLCustomSkin" and "Fantome". */
  datatype ModInfo = ModInfo(author: string, description: string, name: string, version: string)

  const Info: ModInfo := ModInfo(
    "Rerago",
    "Centers the UI in the middle for better (ultra)wide screen support.",
    "WideScreenFix",
    "1.0")

  const LeagueClientExe: string := "LeagueClient.exe"
  const LoLExe: string := "League of Legends.exe"
  const GlobalWad: string := "Global.wad.client"

  /** The folders from an installation root down to the WAD files. */
  const WadFolders: seq<string> := ["Game", "DATA", "FINAL"]

  /** The entries to fix, by their path inside the WAD (`FilesToFixPathes`). */
  const FilesToFixPaths: seq<string> := [
    "ux/renderui/default/basedata.bin",
    "ux/renderui/default_basedata_scenes.bin",
    "ux/renderui/default_renderui.bin",
    "ux/renderui/scenes/default/basedata.bin",
    "ux/renderui/scenes/default/sb_hexakill_ltor_nonames.bin",
    "ux/renderui/scenes/default/sb_hexakill_mirroredcenter_names.bin",
    "ux/renderui/scenes/default/sb_hexakill_mirroredcenter_nonames.bin",
    "ux/renderui/scenes/shared/basedata.bin",
    "ux/renderui/scenes/shared/mobileshared.bin",
    "ux/renderui/scenes/spectatorupdate/basedata.bin",
    "ux/renderui/scenes/tft/basedata.bin",
    "ux/renderui/scenes/tft/mobile.bin",
    "ux/renderui/shared/basedata.bin",
    "ux/renderui/shared_renderui.bin",
    "ux/renderui/spectatorupdate/basedata.bin",
    "ux/renderui/spectatorupdate_basedata_scenes.bin",
    "ux/renderui/spectatorupdate_renderui.bin",
    "ux/renderui/supplementarybins/shared/loadingscreen.bin",
    "ux/renderui/supplementarybins/shared/loadingscreen_clash.bin",
    "ux/renderui/tft/basedata.bin",
    "ux/renderui/tft_renderui.bin",
    "common/candidatelist.uibase.bin",
    "common/keywords.uibase.bin",
    "common/messageboxdialog.uibase.bin",
    "common/options.uibase.bin",
    "common/richbackground.uibase.bin",
    "common/tooltips.uibase.bin",
    "gameplay.questtrackers.uibase.bin",
    "gameplay/chat.uibase.bin",
    "gameplay/deathrecap.uibase.bin",
    "gameplay/endofgame.uibase.bin",
    "gameplay/enemyrespawntimers.uibase.bin",
    "gameplay/esportsbroadcasthud.uibase.bin",
    "gameplay/floatinginfobars.uibase.bin",
    "gameplay/itemshop.uibase.bin",
    "gameplay/killcallouts.uibase.bin",
    "gameplay/lolemotes.uibase.bin",
    "gameplay/lolfloatinginfobars.uibase.bin",
    "gameplay/lolgameheader.uibase.bin",
    "gameplay/lolminimap.uibase.bin",
    "gameplay/lolobjectivebanner.uibase.bin",
    "gameplay/lolprogressbars.uibase.bin",
    "gameplay/missfortuneskin31viewcontroller.uibase.bin",
    "gameplay/pausedialog.uibase.bin",
    "gameplay/playerframe.uibase.bin",
    "gameplay/playerinventory.uibase.bin",
    "gameplay/playerperks.uibase.bin",
    "gameplay/playerstats.uibase.bin",
    "gameplay/playerstatstones.uibase.bin",
    "gameplay/practicetool.uibase.bin",
    "gameplay/questtrackers.uibase.bin",
    "gameplay/reconnectdialog.uibase.bin",
    "gameplay/replaycameracontrols.uibase.bin",
    "gameplay/replaycontrols.uibase.bin",
    "gameplay/replayvisibilitymenu.uibase.bin",
    "gameplay/scoreboard.uibase.bin",
    "gameplay/spectatorkillcallouts.uibase.bin",
    "gameplay/spectatorscoreboard.uibase.bin",
    "gameplay/spellpickchoice.uibase.bin",
    "gameplay/statstonemilestonecallout.uibase.bin",
    "gameplay/surrender.uibase.bin",
    "gameplay/targetframe.uibase.bin",
    "gameplay/targetframereplay.uibase.bin",
    "gameplay/teamfightreplay.uibase.bin",
    "gameplay/teamframes.uibase.bin",
    "gameplay/teamframesreplay.uibase.bin",
    "gameplay/tftarmory.uibase.bin",
    "gameplay/tftarmory_assists.uibase.bin",
    "gameplay/tftarmory_augments.uibase.bin",
    "gameplay/tftcombatrecap.uibase.bin",
    "gameplay/tftfloatinginfobars.uibase.bin",
    "gameplay/tftgameheader.uibase.bin",
    "gameplay/tftgamestart.uibase.bin",
    "gameplay/tftitemcodex.uibase.bin",
    "gameplay/tftminimap.uibase.bin",
    "gameplay/tftobjectivebanner.uibase.bin",
    "gameplay/tftscoreboard.uibase.bin",
    "gameplay/tftstage.uibase.bin",
    "gameplay/tftsurrender.uibase.bin",
    "gameplay/tfttraitinfocard.uibase.bin",
    "gameplay/tfttraittracker.uibase.bin",
    "gameplay/tftunitinfo.uibase.bin",
    "gameplay/tftunitshop.uibase.bin",
    "gameplay/tiptracker.uibase.bin",
    "gameplay/voicechat.uibase.bin",
    "loadingscreen/loadingscreenclassic.uibase.bin",
    "loadingscreen/loadingscreentutorial.uibase.bin",
    "loadingscreen/playercardsclassic.uibase.bin"
  ]

  // ---------------------------------------------------------------- path hashes

  /** `GetXXHash64Hash`: XXHash64 of the lower-cased path. The hash function itself
      (applied to the UTF-8 bytes of its argument) is a parameter. */
  function GetXXHash64Hash(xxh: string -> UInt64, path: string): UInt64
  {
    xxh(ToLower(path))
  }

  /** The hash ignores case: two paths that agree letter by letter up to case hash alike. */
  lemma HashIgnoresCase(xxh: string -> UInt64, a: string, b: string)
    requires |a| == |b|
    requires forall i :: 0 <= i < |a| ==> LowerChar(a[i]) == LowerChar(b[i])
    ensures GetXXHash64Hash(xxh, a) == GetXXHash64Hash(xxh, b)
  {
    assert ToLower(a) == ToLower(b);
  }

  /** In particular a path and its lower-cased form hash alike. */
  lemma HashOfLowerCase(xxh: string -> UInt64, path: string)
    ensures GetXXHash64Hash(xxh, path) == GetXXHash64Hash(xxh, ToLower(path))
  {
    ToLowerIdempotent(path);
  }

  // ---------------------------------------------------------------- the table of entries to fix

  /** No key occurs twice. */
  ghost predicate Distinct(keys: seq<UInt64>)
  {
    forall i, j :: 0 <= i < j < |keys| ==> keys[i] != keys[j]
  }

  /** `ToDictionary` over parallel key and value lists: adds the pairs in order and
      fails on the first key met twice. */
  function ToDictionary(keys: seq<UInt64>, values: seq<string>): (r: Result<map<UInt64, string>, ModError>)
    requires |keys| == |values|
    ensures r.Success? <==> Distinct(keys)
    ensures r.Success? ==> forall k :: k in r.value <==> k in keys
    ensures r.Failure? ==> r.error.DuplicateKey? && r.error.key in keys
    ensures r.Failure? ==> exists i, j :: 0 <= i < j < |keys| && keys[i] == r.error.key && keys[j] == r.error.key
  {
    if |keys| == 0 then Success(map[])
    else
      var n := |keys| - 1;
      match ToDictionary(keys[..n], values[..n])
      case Failure(e) =>
        assert forall i :: 0 <= i < n ==> keys[..n][i] == keys[i];
        Failure(e)
      case Success(m) =>
        assert forall i :: 0 <= i < n ==> keys[..n][i] == keys[i] && values[..n][i] == values[i];
        assert keys == keys[..n] + [keys[n]];
        if keys[n] in m then
          assert keys[n] in keys[..n];
          var i :| 0 <= i < n && keys[..n][i] == keys[n];
          assert keys[i] == keys[n];
          Failure(DuplicateKey(keys[n]))
        else Success(m[keys[n] := values[n]])
  }

  /** A successfully built table maps each key to the value listed with it. */
  lemma {:induction false} ToDictionaryMapsKeys(keys: seq<UInt64>, values: seq<string>, i: nat)
    requires |keys| == |values| && i < |keys|
    requires ToDictionary(keys, values).Success?
    ensures keys[i] in ToDictionary(keys, values).value
    ensures ToDictionary(keys, values).value[keys[i]] == values[i]
  {
    var n := |keys| - 1;
    var prev := ToDictionary(keys[..n], values[..n]);
    assert prev.Success? && keys[n] !in prev.value;
    var m := prev.value;
    var full := ToDictionary(keys, values);
    assert full == Success(m[keys[n] := values[n]]);
    var fm := full.value;
    assert fm == m[keys[n] := values[n]];
    assert keys[n] in fm && fm[keys[n]] == values[n];
    if i < n {
      ToDictionaryMapsKeys(keys[..n], values[..n], i);
      assert keys[..n][i] == keys[i] && values[..n][i] == values[i];
      assert keys[i] in m && m[keys[i]] == values[i];
      assert keys[i] != keys[n];
    }
  }

  /** The hash of every path, in order. */
  function HashAll(xxh: string -> UInt64, paths: seq<string>): (r: seq<UInt64>)
    ensures |r| == |paths|
    ensures forall i :: 0 <= i < |paths| ==> r[i] == GetXXHash64Hash(xxh, paths[i])
  {
    seq(|paths|, i requires 0 <= i < |paths| => GetXXHash64Hash(xxh, paths[i]))
  }

  /** `FilesToFix`: the table from path hash to path. It exists exactly when the listed
      paths hash to distinct values, and then maps each path's hash back to the path. */
  function FilesToFix(xxh: string -> UInt64): (r: Result<map<UInt64, string>, ModError>)
    ensures r.Success? <==> forall i, j :: 0 <= i < j < |FilesToFixPaths| ==>
      GetXXHash64Hash(xxh, FilesToFixPaths[i]) != GetXXHash64Hash(xxh, FilesToFixPaths[j])
    ensures r.Success? ==> forall i :: 0 <= i < |FilesToFixPaths| ==>
      && GetXXHash64Hash(xxh, FilesToFixPaths[i]) in r.value
      && r.value[GetXXHash64Hash(xxh, FilesToFixPaths[i])] == FilesToFixPaths[i]
    ensures r.Success? ==> forall k :: k in r.value ==>
      exists i :: 0 <= i < |FilesToFixPaths| && k == GetXXHash64Hash(xxh, FilesToFixPaths[i])
  {
    var keys := HashAll(xxh, FilesToFixPaths);
    var r := ToDictionary(keys, FilesToFixPaths);
    if r.Success? then
      assert forall i :: 0 <= i < |keys| ==>
        keys[i] in r.value && r.value[keys[i]] == FilesToFixPaths[i] by {
        forall i | 0 <= i < |keys|
          ensures keys[i] in r.value && r.value[keys[i]] == FilesToFixPaths[i]
        {
          ToDictionaryMapsKeys(keys, FilesToFixPaths, i);
        }
      }
      r
    else r
  }

  // ---------------------------------------------------------------- entry selection

  /** An entry of a mounted WAD: its path hash (which is also its dictionary key) and
      its content, already decoded. */
  datatype WadEntry = WadEntry(xxHash: UInt64, tree: Tree)

  /** `Entries.Where(x => FilesToFix.ContainsKey(x.Key)).Select(x => x.Value)`. */
  function SelectEntriesToFix(entries: seq<WadEntry>, filesToFix: map<UInt64, string>): (r: seq<WadEntry>)
    ensures |r| <= |entries|
    ensures forall e :: e in r ==> e.xxHash in filesToFix
    ensures forall e :: multiset(r)[e] == if e.xxHash in filesToFix then multiset(entries)[e] else 0
  {
    if |entries| == 0 then []
    else
      var rest := SelectEntriesToFix(entries[1..], filesToFix);
      assert entries == [entries[0]] + entries[1..];
      if entries[0].xxHash in filesToFix then [entries[0]] + rest else rest
  }

  /** Selection keeps every entry whose key is in the table and nothing else. */
  lemma SelectEntriesToFixExactly(entries: seq<WadEntry>, filesToFix: map<UInt64, string>, e: WadEntry)
    ensures e in SelectEntriesToFix(entries, filesToFix) <==> e in entries && e.xxHash in filesToFix
  {
    var r := SelectEntriesToFix(entries, filesToFix);
    assert e in r <==> multiset(r)[e] > 0;
    assert e in entries <==> multiset(entries)[e] > 0;
  }

  /** Nothing is selected exactly when no entry's key is in the table. */
  lemma SelectionEmpty(entries: seq<WadEntry>, filesToFix: map<UInt64, string>)
    ensures SelectEntriesToFix(entries, filesToFix) == [] <==>
      forall e :: e in entries ==> e.xxHash !in filesToFix
  {
    forall e | e in entries && e.xxHash in filesToFix
      ensures e in SelectEntriesToFix(entries, filesToFix)
    {
      SelectEntriesToFixExactly(entries, filesToFix, e);
    }
  }

  // ---------------------------------------------------------------- output paths

  /** `wadFilePath[leagueWadPath.Length..].TrimStart(sep)`: the WAD's path relative to
      the WAD folder. */
  function RelativeWadPath(wadFilePath: string, leagueWadPath: string, sep: char): (r: string)
    requires |leagueWadPath| <= |wadFilePath|
    ensures |leagueWadPath| + |r| <= |wadFilePath|
    ensures wadFilePath[|wadFilePath| - |r|..] == r
    ensures forall i :: |leagueWadPath| <= i < |wadFilePath| - |r| ==> wadFilePath[i] == sep
    ensures |r| > 0 ==> r[0] != sep
  {
    var tail := wadFilePath[|leagueWadPath|..];
    var r := TrimStart(tail, sep);
    assert forall i :: |leagueWadPath| <= i < |wadFilePath| - |r| ==>
      wadFilePath[i] == tail[i - |leagueWadPath|];
    r
  }

  /** Combining the WAD folder with the relative path gives back the WAD's path. */
  lemma RelativeWadPathRoundTrip(leagueWadPath: string, rest: string, sep: char)
    requires |leagueWadPath| > 0 && leagueWadPath[|leagueWadPath| - 1] != sep
    requires |rest| > 0 && rest[0] != sep
    ensures var wadFilePath := leagueWadPath + [sep] + rest;
      Combine(leagueWadPath, RelativeWadPath(wadFilePath, leagueWadPath, sep), sep) == wadFilePath
  {
    var wadFilePath := leagueWadPath + [sep] + rest;
    assert wadFilePath[|leagueWadPath|..] == [sep] + rest;
    assert ([sep] + rest)[1..] == rest;
  }

  /** `binFilePath.Replace('/', Path.DirectorySeparatorChar)`: the entry's path on disk. */
  function LocalBinPath(binFilePath: string, sep: char): (r: string)
    ensures |r| == |binFilePath|
    ensures forall i :: 0 <= i < |r| && binFilePath[i] == WadDirectorySeparatorChar ==> r[i] == sep
    ensures forall i :: 0 <= i < |r| && binFilePath[i] != WadDirectorySeparatorChar ==> r[i] == binFilePath[i]
  {
    Replace(binFilePath, WadDirectorySeparatorChar, sep)
  }

  /** On a platform whose separator is not '/', the on-disk path holds no '/' and, if
      the separator did not occur in the entry path, maps back to it. */
  lemma LocalBinPathRoundTrip(binFilePath: string, sep: char)
    requires sep != WadDirectorySeparatorChar && sep !in binFilePath
    ensures WadDirectorySeparatorChar !in LocalBinPath(binFilePath, sep)
    ensures Replace(LocalBinPath(binFilePath, sep), sep, WadDirectorySeparatorChar) == binFilePath
  {
    ReplaceRemovesAll(binFilePath, WadDirectorySeparatorChar, sep);
    ReplaceRoundTrip(binFilePath, WadDirectorySeparatorChar, sep);
  }

  // ---------------------------------------------------------------- processing one WAD

  /** A fixed entry: its hash, its path inside the WAD and on disk, the re-anchored tree
      and the number of objects changed. */
  datatype ModdedEntry = ModdedEntry(
    xxHash: UInt64, binFilePath: string, localBinPath: string, tree: Tree, changes: nat)

  /** What one WAD contributes to the mod: its relative path and its fixed entries. */
  datatype WadOutput = WadOutput(relativeWadPath: string, entries: seq<ModdedEntry>)

  /** `e` is the output for entry `w` under the given table, width and separator. */
  ghost predicate IsModdedEntryFor(e: ModdedEntry, w: WadEntry, filesToFix: map<UInt64, string>,
                                   h: NameHashes, target: UInt32, sep: char)
  {
    && w.xxHash in filesToFix
    && e.xxHash == w.xxHash
    && e.binFilePath == filesToFix[w.xxHash]
    && e.localBinPath == LocalBinPath(e.binFilePath, sep)
    && GetModdedBinTree(w.tree, h, target) == Success((e.tree, e.changes))
  }

  /** The inner `foreach` over the selected entries: looks up each entry's path
      (skipping an entry whose lookup fails) and runs the re-anchoring pass on its tree. */
  function ModEntries(selected: seq<WadEntry>, filesToFix: map<UInt64, string>,
                      h: NameHashes, target: UInt32, sep: char): (r: Result<seq<ModdedEntry>, ModError>)
    ensures r.Failure? <==>
      (exists e :: e in selected && e.xxHash in filesToFix) && target as real <= MagicValue
    ensures r.Failure? ==> r.error == ResolutionNotSupported(target)
    ensures r.Success? && (forall e :: e in selected ==> e.xxHash in filesToFix) ==>
      && |r.value| == |selected|
      && forall i :: 0 <= i < |selected| ==>
           IsModdedEntryFor(r.value[i], selected[i], filesToFix, h, target, sep)
  {
    if |selected| == 0 then Success([])
    else
      var w := selected[0];
      if w.xxHash !in filesToFix then ModEntries(selected[1..], filesToFix, h, target, sep)
      else
        match GetModdedBinTree(w.tree, h, target)
        case Failure(_) => Failure(ResolutionNotSupported(target))
        case Success((tree, changes)) =>
          var path := filesToFix[w.xxHash];
          var e := ModdedEntry(w.xxHash, path, LocalBinPath(path, sep), tree, changes);
          match ModEntries(selected[1..], filesToFix, h, target, sep)
          case Failure(err) => Failure(err)
          case Success(rest) => Success([e] + rest)
  }

  /** The body of the WAD loop of `CreateRawModFolder` and `CreatLoLCustomSkinMod`: a
      WAD with no entry to fix is skipped and produces nothing; otherwise every selected
      entry is fixed and written out, whether or not it changed. */
  function ProcessWad(wadFilePath: string, leagueWadPath: string, sep: char, wad: seq<WadEntry>,
                      filesToFix: map<UInt64, string>, h: NameHashes, target: UInt32): (r: Result<Option<WadOutput>, ModError>)
    requires |leagueWadPath| <= |wadFilePath|
    ensures r == Success(None) <==> forall e :: e in wad ==> e.xxHash !in filesToFix
    ensures r.Failure? <==>
      (exists e :: e in wad && e.xxHash in filesToFix) && target as real <= MagicValue
    ensures r.Success? && r.value.Some? ==>
      var out := r.value.value;
      var selected := SelectEntriesToFix(wad, filesToFix);
      && out.relativeWadPath == RelativeWadPath(wadFilePath, leagueWadPath, sep)
      && |out.entries| == |selected| > 0
      && forall i :: 0 <= i < |selected| ==>
           IsModdedEntryFor(out.entries[i], selected[i], filesToFix, h, target, sep)
  {
    var selected := SelectEntriesToFix(wad, filesToFix);
    SelectionEmpty(wad, filesToFix);
    if |selected| == 0 then Success(None)
    else
      assert selected[0] in selected;
      match ModEntries(selected, filesToFix, h, target, sep)
      case Failure(err) => Failure(err)
      case Success(entries) =>
        Success(Some(WadOutput(RelativeWadPath(wadFilePath, leagueWadPath, sep), entries)))
  }

  // ---------------------------------------------------------------- locating the WAD folder

  /** `string.Join(sep, parts)`. */
  function JoinPath(sep: char, parts: seq<string>): string
  {
    if |parts| == 0 then []
    else if |parts| == 1 then parts[0]
    else parts[0] + [sep] + JoinPath(sep, parts[1..])
  }

  /** The position of the first occurrence of `c` in `s`. */
  function IndexOf(s: string, c: char): (r: Option<nat>)
    ensures r.Some? ==> r.value < |s| && s[r.value] == c && c !in s[..r.value]
    ensures r.None? <==> c !in s
  {
    if |s| == 0 then None
    else if s[0] == c then Some(0)
    else
      match IndexOf(s[1..], c)
      case None => None
      case Some(i) =>
        assert s[..i + 1] == [s[0]] + s[1..][..i];
        Some(i + 1)
  }

  /** `s.Split(sep)`: the pieces between the separators, from left to right. */
  function Split(s: string, sep: char): (r: seq<string>)
    ensures |r| > 0
    ensures forall i :: 0 <= i < |r| ==> sep !in r[i]
    decreases |s|
  {
    match IndexOf(s, sep)
    case None => [s]
    case Some(i) => [s[..i]] + Split(s[i + 1..], sep)
  }

  /** Splitting a join of separator-free parts gives the parts back, so a join loses
      nothing. */
  lemma {:induction false} JoinPathSplitRoundTrip(sep: char, parts: seq<string>)
    requires |parts| > 0
    requires forall i :: 0 <= i < |parts| ==> sep !in parts[i]
    ensures Split(JoinPath(sep, parts), sep) == parts
  {
    if |parts| > 1 {
      var r := JoinPath(sep, parts);
      var rest := JoinPath(sep, parts[1..]);
      assert r == parts[0] + [sep] + rest;
      assert sep !in parts[0];
      assert IndexOf(r, sep) == Some(|parts[0]|) by {
        assert r[|parts[0]|] == sep;
        assert r[..|parts[0]|] == parts[0];
      }
      assert r[|parts[0]| + 1..] == rest;
      JoinPathSplitRoundTrip(sep, parts[1..]);
      assert [parts[0]] + parts[1..] == parts;
    }
  }

  /** The two readings of `LastFolderCompare`: the one the source writes and the one it
      evidently intends (see `Paths`). */
  datatype FolderCompare = AsWritten | Intended

  /** `LastFolderCompare(path, folderName)` under the chosen reading. */
  predicate LastFolderIs(compare: FolderCompare, path: string, folderName: string, sep: char)
  {
    match compare
    case AsWritten => LastFolderCompareAsWritten(path, folderName, sep)
    case Intended => LastFolderCompare(path, folderName, sep)
  }

  /** The final two checks of `GetLeagueWadPath`: the candidate folder must hold the
      global WAD and must exist. */
  function CheckWadFolder(candidate: string, sep: char, dirExists: string -> bool,
                          fileExists: string -> bool): (r: Result<string, ModError>)
    ensures r.Success? <==> fileExists(Combine(candidate, GlobalWad, sep)) && dirExists(candidate)
    ensures r.Success? ==> r.value == candidate
    ensures !fileExists(Combine(candidate, GlobalWad, sep)) ==> r == Failure(FileNotFound(GlobalWad))
    ensures fileExists(Combine(candidate, GlobalWad, sep)) && !dirExists(candidate) ==>
      r == Failure(DirectoryNotFound)
  {
    if !fileExists(Combine(candidate, GlobalWad, sep)) then Failure(FileNotFound(GlobalWad))
    else if !dirExists(candidate) then Failure(DirectoryNotFound)
    else Success(candidate)
  }

  /** The folder `GetLeagueWadPath` settles on before its checks: below an installation
      root (where the client executable lies) "Game/DATA/FINAL", below a "Game" folder
      holding the game executable "DATA/FINAL", below a "DATA" folder "FINAL", and
      otherwise the path itself; the folder names are compared under `compare`. */
  function WadFolderCandidate(compare: FolderCompare, leaguePath: string, sep: char,
                              fileExists: string -> bool): (r: string)
    ensures r == leaguePath || exists k :: 0 <= k < |WadFolders| && r == Combine(leaguePath, JoinPath(sep, WadFolders[k..]), sep)
  {
    assert WadFolders[0..] == WadFolders;
    if fileExists(Combine(leaguePath, LeagueClientExe, sep)) then
      Combine(leaguePath, JoinPath(sep, WadFolders), sep)
    else if LastFolderIs(compare, leaguePath, WadFolders[0], sep) && fileExists(Combine(leaguePath, LoLExe, sep)) then
      Combine(leaguePath, JoinPath(sep, WadFolders[1..]), sep)
    else if LastFolderIs(compare, leaguePath, WadFolders[1], sep) then
      Combine(leaguePath, WadFolders[2], sep)
    else leaguePath
  }

  /** `GetLeagueWadPath`: from the path the user gives, the folder holding the WAD
      files. The file system is the pair of existence predicates; `AsWritten` is the
      source's behaviour, `Intended` the corrected one. */
  function GetLeagueWadPath(compare: FolderCompare, leaguePath: string, sep: char,
                            dirExists: string -> bool, fileExists: string -> bool): (r: Result<string, ModError>)
    ensures r == Failure(ArgumentNull) <==> |leaguePath| == 0
    ensures |leaguePath| > 0 && !dirExists(leaguePath) ==> r == Failure(DirectoryNotFound)
    ensures r.Failure? ==> r.error in {ArgumentNull, DirectoryNotFound, FileNotFound(GlobalWad)}
    ensures r.Success? ==>
      && dirExists(leaguePath)
      && dirExists(r.value)
      && fileExists(Combine(r.value, GlobalWad, sep))
      && |leaguePath| <= |r.value| && r.value[..|leaguePath|] == leaguePath
  {
    if |leaguePath| == 0 then Failure(ArgumentNull)
    else if !dirExists(leaguePath) then Failure(DirectoryNotFound)
    else CheckWadFolder(WadFolderCandidate(compare, leaguePath, sep, fileExists), sep, dirExists, fileExists)
  }

  /** Starting from an installation root, the WAD folder is "Game/DATA/FINAL" below it,
      under either reading of the compare. */
  lemma WadPathFromInstallRoot(compare: FolderCompare, leaguePath: string, sep: char,
                               dirExists: string -> bool, fileExists: string -> bool)
    requires |leaguePath| > 0 && dirExists(leaguePath)
    requires fileExists(Combine(leaguePath, LeagueClientExe, sep))
    ensures GetLeagueWadPath(compare, leaguePath, sep, dirExists, fileExists)
         == CheckWadFolder(Combine(leaguePath, "Game" + [sep] + "DATA" + [sep] + "FINAL", sep), sep, dirExists, fileExists)
  {
    assert JoinPath(sep, WadFolders[2..]) == "FINAL";
    assert JoinPath(sep, WadFolders[1..]) == "DATA" + [sep] + "FINAL";
    assert JoinPath(sep, WadFolders) == "Game" + [sep] + "DATA" + [sep] + "FINAL";
  }

  /** Starting from a "Game" folder (in any case, with or without trailing separators)
      that holds the game executable, the WAD folder is "DATA/FINAL" below it. */
  lemma WadPathFromGameFolder(parent: string, last: string, trailing: nat, sep: char,
                              dirExists: string -> bool, fileExists: string -> bool)
    requires |last| > 0 && sep !in last && EqualsIgnoreCase(last, "Game")
    requires var p := parent + [sep] + last + seq(trailing, _ => sep);
      && dirExists(p)
      && !fileExists(Combine(p, LeagueClientExe, sep))
      && fileExists(Combine(p, LoLExe, sep))
    ensures var p := parent + [sep] + last + seq(trailing, _ => sep);
      GetLeagueWadPath(Intended, p, sep, dirExists, fileExists)
        == CheckWadFolder(Combine(p, "DATA" + [sep] + "FINAL", sep), sep, dirExists, fileExists)
  {
    var p := parent + [sep] + last + seq(trailing, _ => sep);
    LastFolderCompareNamesLastFolder(parent, last, trailing, "Game", sep);
    assert JoinPath(sep, WadFolders[2..]) == "FINAL";
    assert JoinPath(sep, WadFolders[1..]) == "DATA" + [sep] + "FINAL";
  }

  /** Starting from a "DATA" folder, the WAD folder is "FINAL" below it. */
  lemma WadPathFromDataFolder(parent: string, last: string, trailing: nat, sep: char,
                              dirExists: string -> bool, fileExists: string -> bool)
    requires |last| > 0 && sep !in last && EqualsIgnoreCase(last, "DATA")
    requires var p := parent + [sep] + last + seq(trailing, _ => sep);
      dirExists(p) && !fileExists(Combine(p, LeagueClientExe, sep))
    ensures var p := parent + [sep] + last + seq(trailing, _ => sep);
      GetLeagueWadPath(Intended, p, sep, dirExists, fileExists)
        == CheckWadFolder(Combine(p, "FINAL", sep), sep, dirExists, fileExists)
  {
    LastFolderCompareNamesLastFolder(parent, last, trailing, "Game", sep);
    LastFolderCompareNamesLastFolder(parent, last, trailing, "DATA", sep);
    assert ToLower("DATA")[0] == 'd' && ToLower("Game")[0] == 'g';
  }

  /** A path that matches none of the three layouts is taken to be the WAD folder. */
  lemma WadPathAsGiven(compare: FolderCompare, leaguePath: string, sep: char,
                       dirExists: string -> bool, fileExists: string -> bool)
    requires |leaguePath| > 0 && dirExists(leaguePath)
    requires !fileExists(Combine(leaguePath, LeagueClientExe, sep))
    requires !LastFolderIs(compare, leaguePath, "Game", sep) || !fileExists(Combine(leaguePath, LoLExe, sep))
    requires !LastFolderIs(compare, leaguePath, "DATA", sep)
    ensures GetLeagueWadPath(compare, leaguePath, sep, dirExists, fileExists)
         == CheckWadFolder(leaguePath, sep, dirExists, fileExists)
  {
  }

  /** The defect at the level of the whole search: given the WAD folder itself,
      ".../DATA/FINAL", the source takes it for a "DATA" folder, looks for the global
      WAD in ".../DATA/FINAL/FINAL" and fails, where the intended search accepts the
      folder. */
  lemma GetLeagueWadPathAsWrittenRejectsWadFolder(parent: string, sep: char,
                                                  dirExists: string -> bool, fileExists: string -> bool)
    requires sep !in "DATA" && sep !in "FINAL"
    requires var p := parent + [sep] + "DATA" + [sep] + "FINAL";
      && dirExists(p)
      && !fileExists(Combine(p, LeagueClientExe, sep))
      && !fileExists(Combine(p, LoLExe, sep))
      && fileExists(Combine(p, GlobalWad, sep))
      && !fileExists(Combine(Combine(p, "FINAL", sep), GlobalWad, sep))
    ensures var p := parent + [sep] + "DATA" + [sep] + "FINAL";
      && GetLeagueWadPath(AsWritten, p, sep, dirExists, fileExists) == Failure(FileNotFound(GlobalWad))
      && GetLeagueWadPath(Intended, p, sep, dirExists, fileExists) == Success(p)
  {
    var p := parent + [sep] + "DATA" + [sep] + "FINAL";
    LastFolderCompareAsWrittenMatchesParent(parent, "DATA", "FINAL", sep);
    assert p + seq(0, _ => sep) == (parent + [sep] + "DATA") + [sep] + "FINAL";
    LastFolderCompareNamesLastFolder(parent + [sep] + "DATA", "FINAL", 0, "DATA", sep);
    if EqualsIgnoreCase("FINAL", "DATA") {
      EqualsIgnoreCaseLength("FINAL", "DATA");
    }
    assert !LastFolderIs(Intended, p, "DATA", sep);
    WadPathAsGiven(Intended, p, sep, dirExists, fileExists);
  }

  // ---------------------------------------------------------------- naming the mod

  /** The decimal digit for `d`. */
  function Digit(d: nat): (c: char)
    requires d < 10
    ensures '0' <= c <= '9' && c as int - '0' as int == d
  {
    ('0' as int + d) as char
  }

  predicate IsDigits(s: string)
  {
    forall i :: 0 <= i < |s| ==> '0' <= s[i] <= '9'
  }

  /** The value of a string of decimal digits. */
  function ParseDecimal(s: string): (n: nat)
    requires IsDigits(s)
  {
    if |s| == 0 then 0
    else ParseDecimal(s[..|s| - 1]) * 10 + (s[|s| - 1] as int - '0' as int)
  }

  /** The decimal rendering of a number, as string interpolation writes a `uint`. */
  function DecimalString(n: nat): (r: string)
    ensures |r| > 0 && IsDigits(r)
    ensures |r| > 1 ==> r[0] != '0'
    ensures ParseDecimal(r) == n
  {
    if n < 10 then [Digit(n)]
    else
      var r := DecimalString(n / 10) + [Digit(n % 10)];
      assert r[..|r| - 1] == DecimalString(n / 10);
      r
  }

  /** Distinct numbers are rendered differently. */
  lemma DecimalStringInjective(a: nat, b: nat)
    ensures DecimalString(a) == DecimalString(b) ==> a == b
  {
  }

  const FolderPrefix: string := Info.name + " ("
  const FolderSuffix: string := "p) - " + Info.version + " (by " + Info.author + ")"

  /** The name of the mod written to `info.json`: the base name followed by the
      resolution, e.g. "WideScreenFix (3440p)"; author, description and version are
      kept. */
  function ModInfoFor(width: UInt32): (r: ModInfo)
    ensures r.author == Info.author && r.description == Info.description && r.version == Info.version
    ensures |Info.name| + 4 < |r.name|
    ensures r.name[..|Info.name| + 2] == Info.name + " ("
    ensures r.name[|r.name| - 2..] == "p)"
    ensures IsDigits(r.name[|Info.name| + 2..|r.name| - 2])
    ensures |Info.name| + 3 < |r.name| - 2 ==> r.name[|Info.name| + 2] != '0'
    ensures ParseDecimal(r.name[|Info.name| + 2..|r.name| - 2]) == width as nat
  {
    var digits := DecimalString(width as nat);
    var name := Info.name + " (" + digits + "p)";
    assert name[|Info.name| + 2..|name| - 2] == digits;
    Info.(name := name)
  }

  /** The folder the LoLCustomSkin mod is built in:
      "WideScreenFix (<width>p) - 1.0 (by Rerago)". Its middle reads back as the width. */
  function ModBaseFolderName(width: UInt32): (r: string)
    ensures |FolderPrefix| + |FolderSuffix| < |r|
    ensures r[..|FolderPrefix|] == FolderPrefix
    ensures r[|r| - |FolderSuffix|..] == FolderSuffix
    ensures IsDigits(r[|FolderPrefix|..|r| - |FolderSuffix|])
    ensures |FolderPrefix| + 1 < |r| - |FolderSuffix| ==> r[|FolderPrefix|] != '0'
    ensures ParseDecimal(r[|FolderPrefix|..|r| - |FolderSuffix|]) == width as nat
  {
    var digits := DecimalString(width as nat);
    var r := FolderPrefix + digits + FolderSuffix;
    assert r[|FolderPrefix|..|r| - |FolderSuffix|] == digits;
    r
  }

  /** The folder name is the mod name of `info.json` followed by version and author. */
  lemma ModBaseFolderNameExtendsModName(width: UInt32)
    ensures ModBaseFolderName(width)
         == ModInfoFor(width).name + " - " + Info.version + " (by " + Info.author + ")"
  {
    var d := DecimalString(width as nat);
    var tail := " - " + Info.version + " (by " + Info.author + ")";
    assert ModInfoFor(width).name == FolderPrefix + d + "p)";
    assert ModBaseFolderName(width) == FolderPrefix + d + FolderSuffix;
    assert FolderSuffix == "p)" + tail;
    assert ModInfoFor(width).name + " - " + Info.version + " (by " + Info.author + ")"
        == FolderPrefix + d + "p)" + tail;
  }

  /** Mods built for different widths go to different folders. */
  lemma ModBaseFolderNameInjective(a: UInt32, b: UInt32)
    ensures ModBaseFolderName(a) == ModBaseFolderName(b) ==> a == b
  {
    if ModBaseFolderName(a) == ModBaseFolderName(b) {
      var r := ModBaseFolderName(a);
      assert ParseDecimal(r[|FolderPrefix|..|r| - |FolderSuffix|]) == a as nat;
    }
  }
}

=== FILE: paths.dfy ===
/** The string and path helpers the mod creator relies on: ordinal lower-casing,
    character replacement, trimming, and the parts of `System.IO.Path` it uses
    (`Combine`, `GetFileName`, `GetDirectoryName`), for a single directory separator
    `sep` and paths without a root. */
module Paths {
  import opened Wrappers

  /** The separator inside WAD entry paths (`WadDirectorySeparatorChar`). */
  const WadDirectorySeparatorChar: char := '/'

  predicate IsUpper(c: char)
  {
    'A' <= c <= 'Z'
  }

  function LowerChar(c: char): (r: char)
    ensures !IsUpper(r)
    ensures IsUpper(c) ==> r as int == c as int + 32
    ensures !IsUpper(c) ==> r == c
  {
    if IsUpper(c) then (c as int + 32) as char else c
  }

  /** `string.ToLower()`, over ASCII letters. */
  function ToLower(s: string): (r: string)
    ensures |r| == |s|
    ensures forall i :: 0 <= i < |s| ==> r[i] == LowerChar(s[i])
    ensures forall i :: 0 <= i < |r| ==> !IsUpper(r[i])
  {
    seq(|s|, i requires 0 <= i < |s| => LowerChar(s[i]))
  }

  /** Lower-casing a lower-case string changes nothing. */
  lemma ToLowerIdempotent(s: string)
    ensures ToLower(ToLower(s)) == ToLower(s)
  {
    assert forall i :: 0 <= i < |s| ==> ToLower(ToLower(s))[i] == ToLower(s)[i];
  }

  /** `string.Compare(a, b, ignoreCase: true) == 0`. */
  predicate EqualsIgnoreCase(a: string, b: string)
  {
    ToLower(a) == ToLower(b)
  }

  /** `s.Replace(from, to)` for single characters. */
  function Replace(s: string, from: char, to: char): (r: string)
    ensures |r| == |s|
    ensures forall i :: 0 <= i < |s| && s[i] == from ==> r[i] == to
    ensures forall i :: 0 <= i < |s| && s[i] != from ==> r[i] == s[i]
  {
    seq(|s|, i requires 0 <= i < |s| => if s[i] == from then to else s[i])
  }

  /** After replacing `from` by a different character, no `from` is left. */
  lemma ReplaceRemovesAll(s: string, from: char, to: char)
    requires from != to
    ensures from !in Replace(s, from, to)
  {
    var r := Replace(s, from, to);
    forall i | 0 <= i < |r|
      ensures r[i] != from
    {
    }
  }

  /** Replacing back undoes a replacement when the new character did not occur before. */
  lemma ReplaceRoundTrip(s: string, from: char, to: char)
    requires to !in s
    ensures Replace(Replace(s, from, to), to, from) == s
  {
    var r := Replace(Replace(s, from, to), to, from);
    forall i | 0 <= i < |s|
      ensures r[i] == s[i]
    {
      assert s[i] != to;
    }
  }

  /** `s.TrimStart(c)`. */
  function TrimStart(s: string, c: char): (r: string)
    ensures |r| <= |s| && s[|s| - |r|..] == r
    ensures forall i :: 0 <= i < |s| - |r| ==> s[i] == c
    ensures |r| > 0 ==> r[0] != c
  {
    if |s| > 0 && s[0] == c then TrimStart(s[1..], c) else s
  }

  /** `s.TrimEnd(c)`. */
  function TrimEnd(s: string, c: char): (r: string)
    ensures |r| <= |s| && s[..|r|] == r
    ensures forall i :: |r| <= i < |s| ==> s[i] == c
    ensures |r| > 0 ==> r[|r| - 1] != c
  {
    if |s| > 0 && s[|s| - 1] == c then TrimEnd(s[..|s| - 1], c) else s
  }

  /** The position of the last occurrence of `c` in `s`. */
  function LastIndexOf(s: string, c: char): (r: Option<nat>)
    ensures r.Some? ==> r.value < |s| && s[r.value] == c
    ensures r.Some? ==> forall i :: r.value < i < |s| ==> s[i] != c
    ensures r.None? <==> c !in s
  {
    if |s| == 0 then None
    else if s[|s| - 1] == c then Some(|s| - 1)
    else LastIndexOf(s[..|s| - 1], c)
  }

  /** `Path.GetFileName`: what follows the last separator. */
  function FileName(path: string, sep: char): (r: string)
    ensures sep !in r
    ensures |r| <= |path| && path[|path| - |r|..] == r
    ensures |r| < |path| ==> path[|path| - |r| - 1] == sep
  {
    match LastIndexOf(path, sep)
    case None => path
    case Some(i) => path[i + 1..]
  }

  /** `Path.GetDirectoryName`: what precedes the last separator, without the run of
      separators before it; null (`None`) for the empty path. */
  function DirectoryName(path: string, sep: char): (r: Option<string>)
    ensures r.None? <==> |path| == 0
    ensures r.Some? && sep !in path ==> r.value == []
    ensures r.Some? && sep in path ==>
      exists i :: 0 <= i < |path| && path[i] == sep && sep !in path[i + 1..]
        && r.value == TrimEnd(path[..i], sep)
  {
    if |path| == 0 then None
    else
      match LastIndexOf(path, sep)
      case None => Some([])
      case Some(i) =>
        Some(TrimEnd(path[..i], sep))
  }

  /** `Path.Combine(a, b)` for a relative `b`: joins with one separator unless `a` is
      empty or already ends with one. */
  function Combine(a: string, b: string, sep: char): (r: string)
    ensures |b| == 0 ==> r == a
    ensures |a| == 0 ==> r == b
    ensures |a| > 0 && |b| > 0 ==>
      && |a| + |b| <= |r| <= |a| + |b| + 1
      && r[..|a|] == a && r[|r| - |b|..] == b
      && |r| - |b| - |a| <= 1
      && (|r| - |b| - |a| == 1 <==> a[|a| - 1] != sep)
      && (|r| - |b| - |a| == 1 ==> r[|a|] == sep)
  {
    if |b| == 0 then a
    else if |a| == 0 then b
    else if a[|a| - 1] == sep then a + b
    else a + [sep] + b
  }

  /** `LastFolderCompare` as the source writes it: the file name of the DIRECTORY NAME
      of the path, compared ignoring case. */
  predicate LastFolderCompareAsWritten(path: string, folderName: string, sep: char)
  {
    match DirectoryName(path, sep)
    case None => false
    case Some(dir) => EqualsIgnoreCase(FileName(dir, sep), folderName)
  }

  /** `LastFolderCompare` as intended: the name of the path's last folder, with any
      trailing separators ignored, compared ignoring case. */
  predicate LastFolderCompare(path: string, folderName: string, sep: char)
  {
    EqualsIgnoreCase(FileName(TrimEnd(path, sep), sep), folderName)
  }

  /** The last `c` of `prefix + [c] + suffix` is the one after `prefix` when `suffix`
      holds none. */
  lemma {:induction false} LastIndexOfAfterPrefix(prefix: string, c: char, suffix: string)
    requires c !in suffix
    ensures LastIndexOf(prefix + [c] + suffix, c) == Some(|prefix|)
  {
    if |suffix| > 0 {
      var s := prefix + [c] + suffix;
      assert s[..|s| - 1] == prefix + [c] + suffix[..|suffix| - 1];
      assert s[|s| - 1] == suffix[|suffix| - 1];
      LastIndexOfAfterPrefix(prefix, c, suffix[..|suffix| - 1]);
    }
  }

  /** The intended compare reads the last folder of the path, with or without trailing
      separators. */
  lemma LastFolderCompareNamesLastFolder(parent: string, last: string, trailing: nat, folderName: string, sep: char)
    requires |last| > 0 && sep !in last
    ensures LastFolderCompare(parent + [sep] + last + seq(trailing, _ => sep), folderName, sep)
        <==> EqualsIgnoreCase(last, folderName)
  {
    var t := parent + [sep] + last;
    assert t[|t| - 1] == last[|last| - 1];
    TrimEndOfSeparators(t, trailing, sep);
    LastIndexOfAfterPrefix(parent, sep, last);
    assert t[|parent| + 1..] == last;
  }

  /** TrimEnd removes exactly an appended run of separators from a string that does not
      end in one. */
  lemma {:induction false} TrimEndOfSeparators(s: string, k: nat, sep: char)
    requires |s| > 0 && s[|s| - 1] != sep
    ensures TrimEnd(s + seq(k, _ => sep), sep) == s
  {
    if k > 0 {
      var t := s + seq(k, _ => sep);
      assert t[..|t| - 1] == s + seq(k - 1, _ => sep);
      TrimEndOfSeparators(s, k - 1, sep);
    }
  }

  /** As written, the compare reads the PARENT of the last component whenever the path
      does not end with a separator. */
  lemma LastFolderCompareAsWrittenReadsParent(parent: string, last: string, folderName: string, sep: char)
    requires sep !in last
    ensures LastFolderCompareAsWritten(parent + [sep] + last, folderName, sep)
        <==> LastFolderCompare(parent, folderName, sep)
  {
    var path := parent + [sep] + last;
    LastIndexOfAfterPrefix(parent, sep, last);
    assert path[..|parent|] == parent;
  }

  /** Strings equal up to case have equal length. */
  lemma EqualsIgnoreCaseLength(a: string, b: string)
    requires EqualsIgnoreCase(a, b)
    ensures |a| == |b|
  {
    assert |ToLower(a)| == |ToLower(b)|;
  }

  /** Whenever the last folder's name is longer than the whole parent path (so the
      parent's name cannot match it), the written compare misses the last folder
      that the intended compare finds. */
  lemma LastFolderCompareAsWrittenMissesLastFolder(parent: string, last: string, sep: char)
    requires |parent| < |last| && sep !in last
    ensures !LastFolderCompareAsWritten(parent + [sep] + last, last, sep)
    ensures LastFolderCompare(parent + [sep] + last, last, sep)
  {
    LastFolderCompareAsWrittenReadsParent(parent, last, last, sep);
    var name := FileName(TrimEnd(parent, sep), sep);
    if EqualsIgnoreCase(name, last) {
      EqualsIgnoreCaseLength(name, last);
    }
    assert parent + [sep] + last + seq(0, _ => sep) == parent + [sep] + last;
    LastFolderCompareNamesLastFolder(parent, last, 0, last, sep);
  }

  /** The counterexample: for "LoL/Game" the written compare answers
      false for "Game", the intended one true. */
  lemma LastFolderCompareAsWrittenMissesGame()
    ensures !LastFolderCompareAsWritten("LoL/Game", "Game", '/')
    ensures LastFolderCompare("LoL/Game", "Game", '/')
  {
    var parent, last := "LoL", "Game";
    assert parent + ['/'] + last == "LoL/Game";
    assert '/' !in last by {
      assert forall i :: 0 <= i < |last| ==> last[i] != '/';
    }
    LastFolderCompareAsWrittenMissesLastFolder(parent, last, '/');
  }

  /** The other side of the same defect: as written, the compare accepts a path whose
      PARENT carries the name, so a WAD folder ".../DATA/FINAL" passes the test for
      "DATA" and would be extended by a second "FINAL". */
  lemma LastFolderCompareAsWrittenMatchesParent(parent: string, folder: string, last: string, sep: char)
    requires |folder| > 0 && sep !in folder && sep !in last
    ensures LastFolderCompareAsWritten(parent + [sep] + folder + [sep] + last, folder, sep)
  {
    LastFolderCompareAsWrittenReadsParent(parent + [sep] + folder, last, folder, sep);
    assert parent + [sep] + folder + seq(0, _ => sep) == parent + [sep] + folder;
    LastFolderCompareNamesLastFolder(parent, folder, 0, folder, sep);
  }

  /** With a trailing separator the written compare and the intended one agree. */
  lemma LastFolderCompareAgreesOnTrailingSeparator(path: string, folderName: string, sep: char)
    requires |path| > 0 && path[|path| - 1] == sep
    ensures LastFolderCompareAsWritten(path, folderName, sep) <==> LastFolderCompare(path, folderName, sep)
  {
    var q := path[..|path| - 1];
    assert LastIndexOf(path, sep) == Some(|path| - 1);
    assert DirectoryName(path, sep) == Some(TrimEnd(q, sep));
    assert TrimEnd(path, sep) == TrimEnd(q, sep);
  }
}

=== FILE: property_lookup.dfy ===
/** Typed property lookup: `GetPropertyByType<T>(hashName)` on an object and on a
    structure, i.e. `Properties.Where(NameHash == hashName).OfType<T>().FirstOrDefault()`.
    A null property list reads as the empty sequence; a null result is `None`. The lookup
    is a pure function, so it cannot modify the object or structure it searches. */
module PropertyLookup {
  import opened Wrappers
  import opened BinTree

  /** `i` is the position of the first property matching both the hash and the kind. */
  ghost predicate IsFirstMatch(props: seq<Property>, hash: bv32, kind: Kind, i: int)
  {
    && 0 <= i < |props|
    && Matches(props[i], hash, kind)
    && forall j :: 0 <= j < i ==> !Matches(props[j], hash, kind)
  }

  /** No property matches both the hash and the kind. */
  ghost predicate NoMatch(props: seq<Property>, hash: bv32, kind: Kind)
  {
    forall j :: 0 <= j < |props| ==> !Matches(props[j], hash, kind)
  }

  /** Position of the first property with name hash `hash` and class `kind`. */
  function FirstMatchIndex(props: seq<Property>, hash: bv32, kind: Kind): (r: Option<nat>)
    ensures r.Some? ==> IsFirstMatch(props, hash, kind, r.value)
    ensures r.None? <==> NoMatch(props, hash, kind)
  {
    if |props| == 0 then None
    else if Matches(props[0], hash, kind) then Some(0)
    else
      match FirstMatchIndex(props[1..], hash, kind)
      case None => None
      case Some(i) => Some(i + 1)
  }

  /** The first property with the given hash and kind, or `None`. */
  function Lookup(props: seq<Property>, hash: bv32, kind: Kind): (r: Option<Property>)
    ensures r.Some? ==> Matches(r.value, hash, kind) && r.value in props
    ensures forall i {:trigger IsFirstMatch(props, hash, kind, i)} ::
      IsFirstMatch(props, hash, kind, i) ==> r == Some(props[i])
    ensures r.None? <==> NoMatch(props, hash, kind)
  {
    match FirstMatchIndex(props, hash, kind)
    case None => None
    case Some(i) => Some(props[i])
  }

  /** `BinTreeObjectExtensions.GetPropertyByType<T>`. */
  function GetObjectPropertyByType(obj: BinObject, hash: bv32, kind: Kind): (r: Option<Property>)
    ensures r.Some? ==> r.value.nameHash == hash && KindOf(r.value.value) == kind
    ensures r.Some? ==> r.value in obj.properties
    ensures forall i {:trigger IsFirstMatch(obj.properties, hash, kind, i)} ::
      IsFirstMatch(obj.properties, hash, kind, i) ==> r == Some(obj.properties[i])
    ensures r.None? <==> NoMatch(obj.properties, hash, kind)
  {
    Lookup(obj.properties, hash, kind)
  }

  /** `BinTreeStructureExtensions.GetPropertyByType<T>`. */
  function GetStructurePropertyByType(s: Structure, hash: bv32, kind: Kind): (r: Option<Property>)
    ensures r.Some? ==> r.value.nameHash == hash && KindOf(r.value.value) == kind
    ensures r.Some? ==> r.value in s.properties
    ensures forall i {:trigger IsFirstMatch(s.properties, hash, kind, i)} ::
      IsFirstMatch(s.properties, hash, kind, i) ==> r == Some(s.properties[i])
    ensures r.None? <==> NoMatch(s.properties, hash, kind)
  {
    Lookup(s.properties, hash, kind)
  }

  // The LINQ pipeline the source writes, stage by stage, as a reference definition.

  /** `Where(x => x.NameHash == hash)`. */
  function WhereNameHash(props: seq<Property>, hash: bv32): seq<Property>
  {
    if |props| == 0 then []
    else if props[0].nameHash == hash then [props[0]] + WhereNameHash(props[1..], hash)
    else WhereNameHash(props[1..], hash)
  }

  /** `OfType<T>()`. */
  function OfKind(props: seq<Property>, kind: Kind): seq<Property>
  {
    if |props| == 0 then []
    else if KindOf(props[0].value) == kind then [props[0]] + OfKind(props[1..], kind)
    else OfKind(props[1..], kind)
  }

  /** `FirstOrDefault()`. */
  function FirstOrDefault(props: seq<Property>): Option<Property>
  {
    if |props| == 0 then None else Some(props[0])
  }

  /** The fused search returns exactly what the filter-filter-first pipeline returns. */
  lemma {:induction false} LookupIsLinqPipeline(props: seq<Property>, hash: bv32, kind: Kind)
    ensures Lookup(props, hash, kind) == FirstOrDefault(OfKind(WhereNameHash(props, hash), kind))
  {
    if |props| > 0 {
      LookupIsLinqPipeline(props[1..], hash, kind);
      if !Matches(props[0], hash, kind) {
        LookupSkipsNonMatchingHead(props, hash, kind);
      }
    }
  }

  /** A head that does not match (a different hash, or the right hash but the wrong
      variant) is skipped and the search continues behind it. */
  lemma LookupSkipsNonMatchingHead(props: seq<Property>, hash: bv32, kind: Kind)
    requires |props| > 0 && !Matches(props[0], hash, kind)
    ensures Lookup(props, hash, kind) == Lookup(props[1..], hash, kind)
  {
  }

  /** A property with the right hash but the wrong variant never stops the search:
      where a search on the hash alone would stop at such a property, the typed lookup
      still finds a property of the right variant whenever the list holds one, and so
      answers differently. */
  lemma WrongVariantDoesNotHide(props: seq<Property>, hash: bv32, kind: Kind, j: nat)
    requires FirstOrDefault(WhereNameHash(props, hash)).Some?
    requires KindOf(FirstOrDefault(WhereNameHash(props, hash)).value.value) != kind
    requires j < |props| && Matches(props[j], hash, kind)
    ensures Lookup(props, hash, kind).Some?
    ensures Lookup(props, hash, kind) != FirstOrDefault(WhereNameHash(props, hash))
  {
  }

  /** Replacing a property by one with the same name hash and kind leaves the position
      every typed lookup finds unchanged. */
  lemma {:induction false} FirstMatchIndexStable(props: seq<Property>, i: nat, p: Property, hash: bv32, kind: Kind)
    requires i < |props|
    requires p.nameHash == props[i].nameHash && KindOf(p.value) == KindOf(props[i].value)
    ensures FirstMatchIndex(props[i := p], hash, kind) == FirstMatchIndex(props, hash, kind)
  {
    if i > 0 {
      assert props[i := p][1..] == props[1..][i - 1 := p];
      FirstMatchIndexStable(props[1..], i - 1, p, hash, kind);
    }
  }
}

=== FILE: rounding.dfy ===
/** `Math.Round(value, 1)`: rounding to one decimal, midpoints to the even neighbour
    (the default `MidpointRounding.ToEven`), over exact reals. */
module Rounding {

  function Abs(x: real): real
  {
    if x < 0.0 then -x else x
  }

  /** `n` is the integer nearest to `x`, and on a tie the even one. This characterises
      rounding to even without saying how to compute it. */
  ghost predicate IsNearestHalfEven(x: real, n: int)
  {
    && Abs(n as real - x) <= 0.5
    && (Abs(n as real - x) == 0.5 ==> n % 2 == 0)
  }

  /** `v` is a whole number of tenths. */
  ghost predicate IsTenth(v: real)
  {
    (v * 10.0).Floor as real == v * 10.0
  }

  /** `r` is `v` rounded to one decimal, midpoints to the even neighbour. */
  ghost predicate IsRoundedTenth(v: real, r: real)
  {
    IsTenth(r) && IsNearestHalfEven(v * 10.0, (r * 10.0).Floor)
  }

  /** Rounds to the nearest integer, ties to even. */
  function RoundHalfEven(x: real): (r: int)
    ensures IsNearestHalfEven(x, r)
  {
    var n := x.Floor;
    var f := x - n as real;
    if f < 0.5 then n
    else if f > 0.5 then n + 1
    else if n % 2 == 0 then n
    else n + 1
  }

  /** At most one integer is nearest-with-ties-to-even. */
  lemma NearestHalfEvenUnique(x: real, a: int, b: int)
    requires IsNearestHalfEven(x, a) && IsNearestHalfEven(x, b)
    ensures a == b
  {
  }

  /** `Math.Round(v, 1)`. */
  function RoundTenth(v: real): (r: real)
    ensures IsRoundedTenth(v, r)
    ensures Abs(r - v) <= 0.05
  {
    var k := RoundHalfEven(v * 10.0);
    assert (k as real / 10.0) * 10.0 == k as real;
    k as real / 10.0
  }

  /** Rounding commutes with negation, so a shift to the left and the same shift to the
      right land on mirror-image values. */
  lemma RoundTenthOdd(v: real)
    ensures RoundTenth(-v) == -RoundTenth(v)
  {
    var k := RoundHalfEven(v * 10.0);
    var m := RoundHalfEven(-v * 10.0);
    assert Abs(-k as real - (-v * 10.0)) == Abs(k as real - v * 10.0);
    assert (-k) % 2 == 0 <==> k % 2 == 0;
    assert IsNearestHalfEven(-v * 10.0, -k);
    NearestHalfEvenUnique(-v * 10.0, m, -k);
  }

  /** A value that already is a whole number of tenths is left as it is. */
  lemma RoundTenthKeepsTenths(v: real)
    requires IsTenth(v)
    ensures RoundTenth(v) == v
  {
    var n := (v * 10.0).Floor;
    assert IsNearestHalfEven(v * 10.0, n);
    NearestHalfEvenUnique(v * 10.0, RoundHalfEven(v * 10.0), n);
  }

  /** Rounding twice is rounding once. */
  lemma RoundTenthIdempotent(v: real)
    ensures RoundTenth(RoundTenth(v)) == RoundTenth(v)
  {
    RoundTenthKeepsTenths(RoundTenth(v));
  }
}

=== FILE: widescreen_fix.dfy ===
/** The re-anchoring pass (`LoLWideScreenFix.GetModdedBinTree`): every top-level object
    that carries an `mAnchors` structure, an `mRect` rectangle and an
    `mRectSourceResolutionWidth`, and whose anchor is pinned to the left (X = 0) or right
    (X = 1) edge, has its rectangle shifted horizontally for the target width and its
    anchor re-pinned to the centre. */
module WideScreenFix {
  import opened Wrappers
  import opened BinTree
  import opened PropertyLookup
  import opened Rounding

  /** The width the game lays its UI out for (`MAGIC_VALUE`). */
  const MagicValue: real := 1440.0

  /** The four property-name hashes (`Fnv1a.HashLower` of "mAnchors", "Anchor", "mRect"
      and "mRectSourceResolutionWidth"), taken as given. */
  datatype NameHashes = NameHashes(
    mAnchors: bv32,
    anchor: bv32,
    mRect: bv32,
    mRectSourceResolutionWidth: bv32)

  /** The `NotSupportedException` thrown for a too-small target width. */
  datatype FixError = ResolutionWidthNotSupported(width: UInt32)

  /** `IsAncorSupported`: the anchor is pinned to the left or the right edge. */
  predicate IsAnchorSupported(anchor: Vector2)
  {
    anchor.x == 1.0 || anchor.x == 0.0
  }

  /** Half the relative width gained over the reference width. */
  function Offset(target: UInt32): real
  {
    (target as real / MagicValue - 1.0) / 2.0
  }

  /** Negates the horizontal edges of a rectangle (a reflection in the vertical axis). */
  function MirrorX(rect: Vector4): Vector4
  {
    Vector4(-rect.x, rect.y, -rect.z, rect.w)
  }

  /** The signed horizontal shift for a supported anchor. Both anchors move by the same
      distance, |Offset| source-width pixels; a left-pinned rectangle always moves left,
      a right-pinned one moves in the direction of the offset: right for a target
      wider than the reference, left for a narrower one. */
  function Shift(anchor: Vector2, sourceWidth: UInt16, target: UInt32): (s: real)
    ensures Abs(s) == Abs(Offset(target)) * sourceWidth as real
    ensures anchor.x == 0.0 ==> s <= 0.0
    ensures anchor.x != 0.0 && target as real >= MagicValue ==> s >= 0.0
    ensures anchor.x != 0.0 && target as real < MagicValue ==> s <= 0.0
  {
    var offset := if anchor.x == 0.0 then -Abs(Offset(target)) else Offset(target);
    offset * sourceWidth as real
  }

  /** `ReanchorCentrally`: a supported rectangle is shifted horizontally by `Shift` and
      both new horizontal edges are rounded to one decimal; nothing else changes. */
  function ReanchorCentrally(rect: Vector4, anchor: Vector2, sourceWidth: UInt16, target: UInt32): (r: Vector4)
    ensures !IsAnchorSupported(anchor) ==> r == rect
    ensures r.y == rect.y && r.w == rect.w
    ensures IsAnchorSupported(anchor) ==>
      && IsRoundedTenth(rect.x + Shift(anchor, sourceWidth, target), r.x)
      && IsRoundedTenth(rect.z + Shift(anchor, sourceWidth, target), r.z)
  {
    if !IsAnchorSupported(anchor) then rect
    else
      var shift := Shift(anchor, sourceWidth, target);
      Vector4(RoundTenth(rect.x + shift), rect.y, RoundTenth(rect.z + shift), rect.w)
  }

  /** Above the reference width the shift is strictly positive whenever the source
      width is, so a right-pinned rectangle moves right and a left-pinned one left. */
  lemma OffsetPositive(target: UInt32)
    requires target as real > MagicValue
    ensures Offset(target) > 0.0
  {
  }

  /** Left- and right-pinned rectangles are reanchored as mirror images of each other. */
  lemma ReanchorMirrors(rect: Vector4, y0: real, y1: real, sourceWidth: UInt16, target: UInt32)
    requires target as real > MagicValue
    ensures ReanchorCentrally(rect, Vector2(0.0, y0), sourceWidth, target)
         == MirrorX(ReanchorCentrally(MirrorX(rect), Vector2(1.0, y1), sourceWidth, target))
  {
    var s := Shift(Vector2(1.0, y1), sourceWidth, target);
    ShiftMirrors(y0, y1, sourceWidth, target);
    ReanchorSupported(rect, Vector2(0.0, y0), sourceWidth, target);
    ReanchorSupported(MirrorX(rect), Vector2(1.0, y1), sourceWidth, target);
    RoundTenthMirror(rect.x, s);
    RoundTenthMirror(rect.z, s);
  }

  /** Above the reference width the left shift is the negated right shift. */
  lemma ShiftMirrors(y0: real, y1: real, sourceWidth: UInt16, target: UInt32)
    requires target as real > MagicValue
    ensures Shift(Vector2(0.0, y0), sourceWidth, target) == -Shift(Vector2(1.0, y1), sourceWidth, target)
  {
    assert Abs(Offset(target)) == Offset(target);
  }

  /** A supported rectangle has both horizontal edges shifted and rounded. */
  lemma ReanchorSupported(rect: Vector4, anchor: Vector2, sourceWidth: UInt16, target: UInt32)
    requires IsAnchorSupported(anchor)
    ensures ReanchorCentrally(rect, anchor, sourceWidth, target)
         == Vector4(RoundTenth(rect.x + Shift(anchor, sourceWidth, target)), rect.y,
                    RoundTenth(rect.z + Shift(anchor, sourceWidth, target)), rect.w)
  {
  }

  /** Shifting one edge left by `s` and rounding mirrors shifting its reflection right. */
  lemma RoundTenthMirror(a: real, s: real)
    ensures RoundTenth(a + -s) == -RoundTenth(-a + s)
  {
    RoundTenthOdd(a + -s);
    assert -(a + -s) == -a + s;
  }

  /** The worked example: rectangle (0, 0, 100, 50) laid out for 1024 pixels and shown
      at 1920 moves to (170.7, 0, 270.7, 50) when right-pinned and to
      (-170.7, 0, -70.7, 50) when left-pinned. */
  lemma ReanchorExample()
    ensures ReanchorCentrally(Vector4(0.0, 0.0, 100.0, 50.0), Vector2(1.0, 0.0), 1024, 1920)
         == Vector4(170.7, 0.0, 270.7, 50.0)
    ensures ReanchorCentrally(Vector4(0.0, 0.0, 100.0, 50.0), Vector2(0.0, 0.0), 1024, 1920)
         == Vector4(-170.7, 0.0, -70.7, 50.0)
  {
    assert Offset(1920) == 1.0 / 6.0;
    assert RoundHalfEven(1706.0 + 2.0 / 3.0) == 1707;
    assert RoundHalfEven(2706.0 + 2.0 / 3.0) == 2707;
    assert RoundHalfEven(-1706.0 - 2.0 / 3.0) == -1707;
    assert RoundHalfEven(-706.0 - 2.0 / 3.0) == -707;
  }

  /** Where the properties the pass needs sit in an object, with their values: the
      `mAnchors` structure, the `mRect` rectangle, the `mRectSourceResolutionWidth`
      width, and the `Anchor` inside `mAnchors`. The positions stand for the property
      objects the source looks up and later assigns through. */
  datatype Target = Target(
    anchorsAt: nat, rectAt: nat, widthAt: nat, anchorAt: nat,
    anchors: Structure, rect: Vector4, width: UInt16, anchor: Vector2)

  /** The object lookups at the head of the object loop of `GetModdedBinTree`: all
      four typed lookups succeed, and `Target` records what they found. */
  function Locate(o: BinObject, h: NameHashes): (r: Option<Target>)
    ensures r.None? <==>
      || GetObjectPropertyByType(o, h.mAnchors, KStructure).None?
      || GetObjectPropertyByType(o, h.mRect, KVector4).None?
      || GetObjectPropertyByType(o, h.mRectSourceResolutionWidth, KUInt16).None?
      || GetStructurePropertyByType(
           GetObjectPropertyByType(o, h.mAnchors, KStructure).value.value.structure,
           h.anchor, KVector2).None?
    ensures r.Some? ==>
      && IsFirstMatch(o.properties, h.mAnchors, KStructure, r.value.anchorsAt)
      && IsFirstMatch(o.properties, h.mRect, KVector4, r.value.rectAt)
      && IsFirstMatch(o.properties, h.mRectSourceResolutionWidth, KUInt16, r.value.widthAt)
      && IsFirstMatch(r.value.anchors.properties, h.anchor, KVector2, r.value.anchorAt)
      && o.properties[r.value.anchorsAt].value == Struct(r.value.anchors)
      && o.properties[r.value.rectAt].value == Vec4(r.value.rect)
      && o.properties[r.value.widthAt].value == U16(r.value.width)
      && r.value.anchors.properties[r.value.anchorAt].value == Vec2(r.value.anchor)
  {
    var ai := FirstMatchIndex(o.properties, h.mAnchors, KStructure);
    var ri := FirstMatchIndex(o.properties, h.mRect, KVector4);
    var wi := FirstMatchIndex(o.properties, h.mRectSourceResolutionWidth, KUInt16);
    if ai.None? || ri.None? || wi.None? then None
    else
      var anchors := o.properties[ai.value].value.structure;
      var ni := FirstMatchIndex(anchors.properties, h.anchor, KVector2);
      if ni.None? then None
      else
        Some(Target(ai.value, ri.value, wi.value, ni.value, anchors,
                    o.properties[ri.value].value.v4,
                    o.properties[wi.value].value.u16,
                    anchors.properties[ni.value].value.v2))
  }

  /** The object is one the pass changes: everything is found, the anchor is pinned to
      an edge, and reanchoring actually moves the rectangle. */
  ghost predicate Qualifies(o: BinObject, h: NameHashes, target: UInt32)
  {
    && Locate(o, h).Some?
    && var t := Locate(o, h).value;
    && IsAnchorSupported(t.anchor)
    && ReanchorCentrally(t.rect, t.anchor, t.width, target) != t.rect
  }

  /** Two property lists have the same names and variants in the same order. */
  ghost predicate SameShape(a: seq<Property>, b: seq<Property>)
  {
    && |a| == |b|
    && forall j :: 0 <= j < |a| ==>
         a[j].nameHash == b[j].nameHash && KindOf(a[j].value) == KindOf(b[j].value)
  }

  /** The `mAnchors` structure with its `Anchor` re-pinned to the horizontal centre,
      keeping its Y, as the pass assigns it. */
  function CentredAnchors(t: Target): (r: Structure)
    requires t.anchorAt < |t.anchors.properties|
    requires t.anchors.properties[t.anchorAt].value.Vec2?
    ensures r.metaClassHash == t.anchors.metaClassHash
    ensures SameShape(t.anchors.properties, r.properties)
    ensures forall j :: 0 <= j < |r.properties| && j != t.anchorAt ==>
      r.properties[j] == t.anchors.properties[j]
    ensures r.properties[t.anchorAt].nameHash == t.anchors.properties[t.anchorAt].nameHash
    ensures r.properties[t.anchorAt].value == Vec2(Vector2(0.5, t.anchor.y))
  {
    var p := t.anchors.properties[t.anchorAt];
    t.anchors.(properties := t.anchors.properties[t.anchorAt := p.(value := Vec2(Vector2(0.5, t.anchor.y)))])
  }

  /** Commits a reanchored rectangle, as the two assignments of the pass do: `mRect`
      takes the new value and the anchor is re-pinned to the centre; every other
      property stays as it is. */
  function Commit(o: BinObject, h: NameHashes, t: Target, rect: Vector4): (r: BinObject)
    requires t.rectAt < |o.properties| && t.anchorsAt < |o.properties|
    requires Matches(o.properties[t.rectAt], h.mRect, KVector4)
    requires Matches(o.properties[t.anchorsAt], h.mAnchors, KStructure)
    requires t.anchorAt < |t.anchors.properties| && t.anchors.properties[t.anchorAt].value.Vec2?
    ensures r.pathHash == o.pathHash && r.metaClassHash == o.metaClassHash
    ensures SameShape(o.properties, r.properties)
    ensures forall j :: 0 <= j < |o.properties| && j != t.rectAt && j != t.anchorsAt ==>
      r.properties[j] == o.properties[j]
    ensures r.properties[t.rectAt] == Property(h.mRect, Vec4(rect))
    ensures r.properties[t.anchorsAt] == Property(h.mAnchors, Struct(CentredAnchors(t)))
  {
    var props := o.properties[t.rectAt := Property(h.mRect, Vec4(rect))];
    o.(properties := props[t.anchorsAt := Property(h.mAnchors, Struct(CentredAnchors(t)))])
  }

  /** After a commit every lookup of the pass finds the same positions, now holding the
      new rectangle and the centred anchor. */
  lemma CommitLookups(o: BinObject, h: NameHashes, t: Target, rect: Vector4)
    requires Locate(o, h) == Some(t)
    ensures Locate(Commit(o, h, t, rect), h)
         == Some(t.(anchors := CentredAnchors(t), rect := rect, anchor := Vector2(0.5, t.anchor.y)))
  {
    var props := o.properties[t.rectAt := Property(h.mRect, Vec4(rect))];
    var props' := props[t.anchorsAt := Property(h.mAnchors, Struct(CentredAnchors(t)))];
    assert Commit(o, h, t, rect).properties == props';
    forall hash: bv32, kind: Kind
      ensures FirstMatchIndex(props', hash, kind) == FirstMatchIndex(o.properties, hash, kind)
    {
      FirstMatchIndexStable(o.properties, t.rectAt, Property(h.mRect, Vec4(rect)), hash, kind);
      FirstMatchIndexStable(props, t.anchorsAt, Property(h.mAnchors, Struct(CentredAnchors(t))), hash, kind);
    }
    var c := CentredAnchors(t);
    assert c.properties == t.anchors.properties[t.anchorAt := c.properties[t.anchorAt]];
    FirstMatchIndexStable(t.anchors.properties, t.anchorAt, c.properties[t.anchorAt], h.anchor, KVector2);
  }

  /** One iteration of the object loop of `GetModdedBinTree`: returns the object as it is
      afterwards and whether it was counted as a change. */
  function ReanchorObject(o: BinObject, h: NameHashes, target: UInt32): (r: (BinObject, bool))
    ensures r.1 <==> Qualifies(o, h, target)
    ensures r.1 <==> r.0 != o
    ensures r.0.pathHash == o.pathHash && r.0.metaClassHash == o.metaClassHash
    ensures SameShape(o.properties, r.0.properties)
  {
    match Locate(o, h)
    case None => (o, false)
    case Some(t) =>
      if !IsAnchorSupported(t.anchor) then (o, false)
      else
        var rect := ReanchorCentrally(t.rect, t.anchor, t.width, target);
        if rect == t.rect then (o, false)
        else
          (Commit(o, h, t, rect), true)
  }

  /** What a counted change does: the rectangle takes the reanchored value, the anchor
      is re-pinned to (0.5, Y), the width is kept, and every other property, at top
      level and inside `mAnchors`, is left as it was. The lookups still find the same
      properties. */
  lemma ReanchorObjectEffect(o: BinObject, h: NameHashes, target: UInt32)
    requires ReanchorObject(o, h, target).1
    ensures
      var o' := ReanchorObject(o, h, target).0;
      var t := Locate(o, h).value;
      && (forall j :: 0 <= j < |o.properties| && j != t.rectAt && j != t.anchorsAt ==>
            o'.properties[j] == o.properties[j])
      && Locate(o', h).Some?
      && var t' := Locate(o', h).value;
      && t'.anchorsAt == t.anchorsAt && t'.rectAt == t.rectAt
      && t'.widthAt == t.widthAt && t'.anchorAt == t.anchorAt
      && t'.rect == ReanchorCentrally(t.rect, t.anchor, t.width, target)
      && t'.width == t.width
      && t'.anchor == Vector2(0.5, t.anchor.y)
      && (forall j :: 0 <= j < |t.anchors.properties| && j != t.anchorAt ==>
            t'.anchors.properties[j] == t.anchors.properties[j])
  {
    var t := Locate(o, h).value;
    CommitLookups(o, h, t, ReanchorCentrally(t.rect, t.anchor, t.width, target));
  }

  /** `IsAncorSupported` gates every change: an object whose anchor is not pinned to an
      edge is never changed, and a changed object's anchor is afterwards pinned to the
      centre, which the predicate no longer accepts. */
  lemma ReanchorObjectAnchorSupport(o: BinObject, h: NameHashes, target: UInt32)
    ensures Locate(o, h).Some? && !IsAnchorSupported(Locate(o, h).value.anchor) ==>
      ReanchorObject(o, h, target) == (o, false)
    ensures ReanchorObject(o, h, target).1 ==>
      && IsAnchorSupported(Locate(o, h).value.anchor)
      && Locate(ReanchorObject(o, h, target).0, h).Some?
      && !IsAnchorSupported(Locate(ReanchorObject(o, h, target).0, h).value.anchor)
  {
    if ReanchorObject(o, h, target).1 {
      ReanchorObjectEffect(o, h, target);
    }
  }

  /** Applying the pass to its own result changes nothing more: a committed anchor
      now sits at X = 0.5, which is not supported, and every other object is skipped
      for the same reason as before. */
  lemma ReanchorObjectIdempotent(o: BinObject, h: NameHashes, target: UInt32)
    ensures var o' := ReanchorObject(o, h, target).0;
      ReanchorObject(o', h, target) == (o', false)
  {
    if ReanchorObject(o, h, target).1 {
      ReanchorObjectEffect(o, h, target);
    }
  }

  /** The number of positions at which two equally long object lists differ. */
  ghost function CountDiffering(a: seq<BinObject>, b: seq<BinObject>): nat
    requires |a| == |b|
  {
    if |a| == 0 then 0
    else (if a[0] != b[0] then 1 else 0) + CountDiffering(a[1..], b[1..])
  }

  /** No position differs exactly when the lists are equal. */
  lemma {:induction false} CountDifferingZero(a: seq<BinObject>, b: seq<BinObject>)
    requires |a| == |b|
    ensures CountDiffering(a, b) == 0 <==> a == b
  {
    if |a| > 0 {
      CountDifferingZero(a[1..], b[1..]);
      if a[0] == b[0] && a[1..] == b[1..] {
        assert a == [a[0]] + a[1..] && b == [b[0]] + b[1..];
      }
    }
  }

  /** The `foreach` over the objects with its `changes` counter. */
  function ReanchorObjects(objs: seq<BinObject>, h: NameHashes, target: UInt32): (r: (seq<BinObject>, nat))
    ensures |r.0| == |objs|
    ensures forall i :: 0 <= i < |objs| ==> r.0[i] == ReanchorObject(objs[i], h, target).0
    ensures r.1 == CountDiffering(objs, r.0)
    ensures r.1 <= |objs|
  {
    if |objs| == 0 then ([], 0)
    else
      var (o, changed) := ReanchorObject(objs[0], h, target);
      var (rest, n) := ReanchorObjects(objs[1..], h, target);
      assert ([o] + rest)[1..] == rest;
      ([o] + rest, n + (if changed then 1 else 0))
  }

  /** `GetModdedBinTree`: rejects a target width of at most 1440 before touching any
      object; otherwise returns the tree with every qualifying object reanchored, and
      the number of objects changed. */
  function GetModdedBinTree(tree: Tree, h: NameHashes, target: UInt32): (r: Result<(Tree, nat), FixError>)
    ensures r.Failure? <==> target as real <= MagicValue
    ensures r.Failure? ==> r.error == ResolutionWidthNotSupported(target)
    ensures r.Success? ==>
      var (tree', changes) := r.value;
      && tree'.dependencies == tree.dependencies
      && |tree'.objects| == |tree.objects|
      && changes == CountDiffering(tree.objects, tree'.objects)
      && changes <= |tree.objects|
      && (forall i :: 0 <= i < |tree.objects| ==>
            (tree'.objects[i] != tree.objects[i] <==> Qualifies(tree.objects[i], h, target)))
      && (forall i :: 0 <= i < |tree.objects| ==>
            tree'.objects[i] == ReanchorObject(tree.objects[i], h, target).0)
  {
    if target as real <= MagicValue then Failure(ResolutionWidthNotSupported(target))
    else
      var (objs, changes) := ReanchorObjects(tree.objects, h, target);
      Success((tree.(objects := objs), changes))
  }

  lemma {:induction false} ReanchorObjectsIdempotent(objs: seq<BinObject>, h: NameHashes, target: UInt32)
    ensures var objs' := ReanchorObjects(objs, h, target).0;
      ReanchorObjects(objs', h, target) == (objs', 0)
  {
    if |objs| > 0 {
      var objs' := ReanchorObjects(objs, h, target).0;
      ReanchorObjectIdempotent(objs[0], h, target);
      assert objs'[1..] == ReanchorObjects(objs[1..], h, target).0;
      ReanchorObjectsIdempotent(objs[1..], h, target);
    }
  }

  /** Running the pass again on its output yields the same tree and zero changes. */
  lemma GetModdedBinTreeIdempotent(tree: Tree, h: NameHashes, target: UInt32)
    requires target as real > MagicValue
    ensures GetModdedBinTree(tree, h, target).Success?
    ensures var tree' := GetModdedBinTree(tree, h, target).value.0;
      GetModdedBinTree(tree', h, target) == Success((tree', 0))
  {
    ReanchorObjectsIdempotent(tree.objects, h, target);
  }
}

=== FILE: wrappers.dfy ===
/** `Option` stands for a reference that may be null, `Result` for a value or the
    exception that would have been thrown instead. */
module Wrappers {

  datatype Option<+T> = None | Some(value: T)

  datatype Result<+R, +E> = Success(value: R) | Failure(error: E)
}
